=== FILE: README.md ===
# Moltimon game rules in Dafny

A model of the game-rule layer of the Moltimon trading-card backend: battles,
trades, friend requests, decks, achievements, the daily login pack, the
notification inbox and direct messages. Each handler of the TypeScript source
runs a handful of SQL statements. Here their combined effect is one pure
transition over an immutable database record, `GameState.Game`. Each
transition returns an `Outcome(game, reply)`, where the reply is a `Result`
datatype for handlers that can refuse.

Modules follow the source files:

| module | file | source |
|---|---|---|
| `GameState` | `state.dfy` | tables, stats columns, row ids, card ownership, packs, `getOrCreateAgent` |
| `Ordering` | `ordering.dfy` | the `ORDER BY` orders: binary text order, reversal, a stable sort |
| `Notifications` | `notifications.dfy` | `src/handlers/ux/notifications.ts` |
| `Messages` | `messages.dfy` | `src/handlers/ux/messages.ts` |
| `Friends` | `friends.dfy` | `src/handlers/ux/friends.ts` |
| `Decks` | `decks.dfy` | `src/handlers/ux/decks.ts` |
| `Achievements` | `achievements.dfy` | `src/handlers/ux/achievements.ts` |
| `Battles` | `battles.dfy` | `src/handlers/battles.ts` |
| `Trading` | `trading.dfy` | `src/handlers/trading.ts` |
| `DailyLogin` | `daily_login.dfy` | `src/utils/daily-login.ts` |

Modelling choices:

- **Row ids.** The source draws row ids from uuidv4. Here they come from a counter, `nextId`.
- **`GameState.Valid`.** It says every row id is below `nextId`, and that the ordered tables hold their rows in increasing id order. This is the uniqueness the source gets from random UUIDs.
- **Ordered tables.** Friends, notifications and messages are queried with `ORDER BY created_at`. They are sequences in insertion order. Achievements are a sequence in insertion order too. No achievement query orders by creation time: the listings sort by category and name, and the scan in `checkAchievements` has no `ORDER BY`.
- **Keyed tables.** The other tables are maps keyed by row id: packs, battles, trades, decks and award rows.
- **Agent stats.** An agent's stats row is a `Stats` record, and `StatField` names its columns. This is also how the dynamic column of an achievement's stat reward is modelled.
- **Battle powers.** Both final powers of a battle are inputs. The ELO constants and a new agent's stats row come in through `Config`.
- **Today's date.** The date of the daily login is a parameter.

## Model

| member | source | states |
|---|---|---|
| GameState.FirstUnowned | src/handlers/trading.ts:9-14 | none exactly when every listed card is owned; otherwise the first listed card that is not owned, with all cards before it owned |
| GameState.GiveCards | src/handlers/trading.ts:44-50 | listed cards that exist go to the new owner, every other card keeps its owner, and no card is created or removed |
| GameState.EnsureAgent | src/handlers/ux/friends.ts:12-15 | afterwards the agent exists under the name passed in; for a known agent only that name is written; a new one gets its agent row, a stats row if it had none, and two unopened starter packs under the next two ids, and nothing else changes; `Valid` is kept |
| GameState.SignupBonus | tests/database.test.ts:58-80 | a new agent holds exactly two more starter packs, under ids no pack had; an existing agent gains none; nobody else's packs, and no other pack type, change |
| GameState.CreatePackAddsOne | src/utils/daily-login.ts:31-33 | under `Valid`, the owner gains exactly one pack of that type under a new id, no other agent's or type's packs change, and `Valid` is kept |
| Ordering.TextLeTotal | src/handlers/ux/friends.ts:163 | any two texts compare under binary collation |
| Ordering.TextLeTransitive | src/handlers/ux/friends.ts:163 | binary collation order is transitive |
| Ordering.TextLeAntisymmetric | src/handlers/ux/achievements.ts:133 | two texts that each precede the other are equal |
| Ordering.ReverseSameElements | src/handlers/ux/messages.ts:74 | reversing keeps exactly the same elements, with multiplicity |
| Ordering.SortBySorted | src/handlers/ux/friends.ts:163 | the insertion sort's output is ordered under any total preorder |
| Notifications.Create | src/handlers/ux/notifications.ts:17-23 | exactly one unread row is appended under the next id, which is returned; nothing else changes |
| Notifications.CreateAddsOneUnread | src/handlers/ux/notifications.ts:17-23 | the new id is no existing row's id, the recipient has exactly one more unread notification, and no other agent's count moves |
| Notifications.GetNotifications | src/handlers/ux/notifications.ts:29-34 | exactly the agent's own rows, read ones only with `includeRead`, newest first |
| Notifications.UnreadCountIsUnreadListing | src/handlers/ux/notifications.ts:118-122 | the unread count equals the length of the unread listing |
| Notifications.GetNotificationCount | src/handlers/ux/notifications.ts:117-130 | the count equals the number of rows `getNotifications` lists without read ones |
| Notifications.MarkNotificationAsRead | src/handlers/ux/notifications.ts:54-69 | success iff the agent owns a row with that id, read or not; only such rows change, and they become read |
| Notifications.MarkAllNotificationsAsRead | src/handlers/ux/notifications.ts:75-91 | reports the agent's previous unread count; every row of the agent is read afterwards and otherwise unchanged; other agents' rows and counts are left alone |
| Notifications.DeleteNotification | src/handlers/ux/notifications.ts:97-111 | success iff the agent owned a row with that id; exactly those rows are gone |
| Notifications.DeleteAddressedAscending | src/handlers/ux/notifications.ts:98-101 | deleting rows keeps the remaining ones in increasing id order |
| Notifications.DeleteNotificationKeepsValid | src/handlers/ux/notifications.ts:97-111 | deleting a notification keeps `Valid` |
| Messages.Deliver | src/handlers/ux/messages.ts:28-41 | one unread message under the next id and one notification to the recipient; the id is fresh and `Valid` is kept; nothing else changes |
| Messages.SendMessage | src/handlers/ux/messages.ts:11-53 | one unread message from the sender is appended and one notification goes to the recipient, whether or not the two are friends; the new id is fresh under `Valid`; apart from those two tables and the id counter the state is the one `getOrCreateAgent` leaves |
| Messages.Thread | src/handlers/ux/messages.ts:63-64 | exactly the messages between the two agents, in either direction |
| Messages.ThreadAscending | src/handlers/ux/messages.ts:63-65 | selecting a conversation keeps the stored order |
| Messages.GetConversation | src/handlers/ux/messages.ts:58-79 | the newest `limit` messages of the conversation, all of them for a negative limit, in stored order, each tagged 'sent' iff the agent sent it |
| Messages.ConversationMembers | src/handlers/ux/messages.ts:59-67 | every entry is a stored message between the two agents |
| Messages.ConversationAscending | src/handlers/ux/messages.ts:65-74 | under `Valid` the entries are oldest first |
| Messages.MarkMessageAsRead | src/handlers/ux/messages.ts:116-132 | success iff the agent is the recipient of an unread message with that id; exactly those rows become read |
| Messages.SecondMarkFails | src/handlers/ux/messages.ts:120 | marking the same message a second time fails and changes nothing |
| Messages.GetUnreadMessageCount | src/handlers/ux/messages.ts:137-153 | the count equals the number of unread messages addressed to the agent |
| Messages.DeleteMessage | src/handlers/ux/messages.ts:158-173 | success iff the agent sent a message with that id; exactly those rows are gone |
| Messages.DeleteMessageKeepsValid | src/handlers/ux/messages.ts:158-162 | deleting a message keeps `Valid` |
| Friends.FirstLink | src/handlers/ux/friends.ts:19-22 | the first row, in table order, that links the pair in either direction, or none iff no row links them |
| Friends.SendFriendRequestAsWritten | src/handlers/ux/friends.ts:11-69 | the reply depends on the first row between the pair only: "Already friends" iff it is accepted, "already pending" iff it is pending, success iff there is none or it is declined; a refusal leaves the state `getOrCreateAgent` produced; a success appends one pending row and one unread notification to the target carrying the sender and the new row id, and changes nothing else |
| Friends.DeclinedThenAcceptedIsSound | src/handlers/ux/friends.ts:19-41 | the counterexample state is valid, has one live row per pair, and its two agents are friends |
| Friends.AsWrittenAllowsSecondLiveRow | src/handlers/ux/friends.ts:19-41 | from that state the as-written check accepts a new request, which leaves two live rows for the pair |
| Friends.AsWrittenSendsAgain | src/handlers/ux/friends.ts:19-48 | in the counterexample state the as-written check finds the declined row first and inserts a new pending row |
| Friends.SendFriendRequest | src/handlers/ux/friends.ts:11-69 | "Already friends" iff an accepted row links the pair, "already pending" iff a pending one does and no accepted one; otherwise exactly one new pending row and one unread notification to the target carrying the sender and the new row id; a refusal leaves the state `getOrCreateAgent` produced, and a success changes nothing else |
| Friends.SendKeepsOneLivePerPair | src/handlers/ux/friends.ts:18-48 | the corrected check keeps at most one pending-or-accepted row per pair |
| Friends.AppendUnlinked | src/handlers/ux/friends.ts:18-48 | appending a row for a pair that no live row links keeps at most one live row per pair |
| Friends.AcceptFriendRequest | src/handlers/ux/friends.ts:74-111 | success iff a pending row with that id targets the agent; only that row becomes accepted, and exactly one notification goes to its sender; failure changes nothing |
| Friends.SecondAcceptFails | src/handlers/ux/friends.ts:78-88 | accepting the same request again fails and changes nothing |
| Friends.DeclineFriendRequest | src/handlers/ux/friends.ts:116-132 | success iff a pending row with that id targets the agent; only such rows change, to declined |
| Friends.ResolveKeepsOneLivePerPair | src/handlers/ux/friends.ts:75-79 | accepting or declining never adds a live row, so at most one live row per pair is kept |
| Friends.SenderOf | src/handlers/ux/friends.ts:91 | under ascending ids, the sender of the row with that id |
| Friends.RemoveFriend | src/handlers/ux/friends.ts:137-152 | every row between the pair, in both directions and any status, is deleted and no other; success iff there was one |
| Friends.RemoveFriendKeepsValid | src/handlers/ux/friends.ts:138-141 | removing a friend keeps `Valid` |
| Friends.GetFriends | src/handlers/ux/friends.ts:157-176 | exactly the accepted rows the agent sent whose target is a known agent, with the target's name, ordered by that name |
| Friends.JoinAscending | src/handlers/ux/friends.ts:182-187 | selecting and joining rows keeps the table's increasing id order |
| Friends.GetIncomingFriendRequests | src/handlers/ux/friends.ts:181-200 | exactly the pending rows that target the agent and whose sender is a known agent, with the sender's name; under `Valid`, newest first |
| Friends.GetOutgoingFriendRequests | src/handlers/ux/friends.ts:205-224 | exactly the pending rows the agent sent whose target is a known agent, with the target's name; under `Valid`, newest first |
| Decks.CreateDeck | src/handlers/ux/decks.ts:10-41 | refused iff the agent already has ten decks, with no change; otherwise one empty, inactive deck under a new id, with a missing description stored as "" |
| Decks.CreateDeckKeepsInvariants | src/handlers/ux/decks.ts:12-23 | no agent exceeds ten decks, at most one deck per agent is active, and the creator gains exactly one deck |
| Decks.UpdateDeck | src/handlers/ux/decks.ts:46-87 | "Deck not found" iff the agent does not own the deck; otherwise success iff every listed card is the agent's, with the list stored as given and its length reported; a failure names the first listed card that is not the agent's and changes nothing |
| Decks.UpdateDeckKeepsInvariants | src/handlers/ux/decks.ts:71-75 | updating a list keeps both deck invariants |
| Decks.DeleteDeck | src/handlers/ux/decks.ts:92-107 | the deck is removed iff the agent owns it, success iff removed, and both deck invariants and `Valid` are kept |
| Decks.SetActiveDeck | src/handlers/ux/decks.ts:183-203 | afterwards the agent's active decks are exactly the target if owned and none otherwise; other agents' decks and all card lists are untouched |
| Decks.SetActiveDeckKeepsInvariants | src/handlers/ux/decks.ts:185-192 | setting the active deck keeps both deck invariants |
| Decks.GetActiveDeck | src/handlers/ux/decks.ts:208-224 | "No active deck set" iff the agent has no active deck; otherwise an active deck of the agent, the only one under the one-active invariant |
| Decks.SetThenGetActive | src/handlers/ux/decks.ts:183-224 | after setting, the active deck is the target; after a failed set, there is none |
| Achievements.CatalogNamesDistinct | src/handlers/ux/achievements.ts:9-52 | the six predefined names are distinct |
| Achievements.Missing | src/handlers/ux/achievements.ts:58-60 | exactly the catalog entries, in order, whose names no row carries |
| Achievements.InitFromAppendsMissing | src/handlers/ux/achievements.ts:58-66 | with distinct names, the loop appends exactly the missing entries, in catalog order, each row carrying its entry's name, description, category, requirement and reward |
| Achievements.InitFrom | src/handlers/ux/achievements.ts:58-66 | every listed name has a row afterwards, existing rows stay in place, and the appended rows take consecutive ids from the counter |
| Achievements.InitAchievements | src/handlers/ux/achievements.ts:57-67 | afterwards every catalog name has a row; existing rows stay in place; what is appended is exactly the catalog entries whose names were missing, in catalog order, with their fields, under consecutive fresh ids; `Valid` is kept |
| Achievements.InitIdempotent | src/handlers/ux/achievements.ts:57-67 | a second initialisation changes nothing |
| Achievements.InitOneRowPerName | src/handlers/ux/achievements.ts:58-66 | from a table without duplicate names, there is exactly one row per catalog name afterwards |
| Achievements.InitFromKeepsValid | src/handlers/ux/achievements.ts:58-66 | the loop keeps `Valid` |
| Achievements.GetAvailableAchievements | src/handlers/ux/achievements.ts:127-146 | exactly the rows the agent has not earned, ordered by category and then name |
| Achievements.Qualifying | src/handlers/ux/achievements.ts:172-190 | exactly the candidates one of whose five thresholds the progress meets |
| Achievements.ApplyReward | src/handlers/ux/achievements.ts:211-222 | a stat reward adds its amount to that column of the agent; a pack reward changes nothing |
| Achievements.CheckAchievements | src/handlers/ux/achievements.ts:151-237 | the reply names the qualifying unearned achievements, taken in insertion order; one notification per award goes to the agent; only the agent's stats move, by the total of the stat rewards |
| Achievements.CheckAchievementsTables | src/handlers/ux/achievements.ts:192-200 | the award table gains one row per qualifying achievement, the id counter moves by two per award (award row and notification), and the reported count equals the number qualifying |
| Achievements.CheckAchievementsAwards | src/handlers/ux/achievements.ts:192-199 | existing award rows stay, one row is added per reported name, and no other agent earns anything |
| Achievements.CheckAchievementsEarns | src/handlers/ux/achievements.ts:165-190 | an unearned achievement becomes earned iff the progress read at the start meets one of its thresholds |
| Achievements.CheckAchievementsAwardsOnce | src/handlers/ux/achievements.ts:165-170 | no achievement is awarded twice to the same agent |
| Achievements.CheckAchievementsKeepsValid | src/handlers/ux/achievements.ts:192-209 | checking achievements keeps `Valid` |
| Battles.Challenge | src/handlers/battles.ts:9-30 | refused iff the challenger does not own the card, creating nothing; otherwise the opponent exists and one pending battle with the opponent id as passed is stored under a new id, and apart from the battle and the id counter the state is the one `getOrCreateAgent` leaves; an agent may challenge itself |
| Battles.ChallengeKeepsValid | src/handlers/battles.ts:16-22 | a challenge keeps `Valid` |
| Battles.WinnerIsFair | src/handlers/battles.ts:81-82 | swapping sides and powers names the same winner, and there is a winner iff the powers differ |
| Battles.DecisiveStats | src/handlers/battles.ts:93-103 | the winner gains a win, the ELO bonus and a streak step, the loser gains a loss and loses the ELO penalty, and no other column moves |
| Battles.StreakBonus | src/handlers/battles.ts:105-114 | a premium pack and a reset counter iff the winner's counter reached three |
| Battles.AcceptBattle | src/handlers/battles.ts:32-139 | "not pending" iff the battle is not a pending one addressed to the agent with an existing challenger card; then "not yours" iff the agent does not own the card; otherwise the battle is completed with card, powers and winner recorded, and a premium pack is added only for a winner |
| Battles.SecondAcceptFails | src/handlers/battles.ts:37 | accepting the same battle again fails and changes nothing |
| Battles.AcceptBattleKeepsValid | src/handlers/battles.ts:85-114 | accepting keeps `Valid` |
| Battles.DecisiveResult | src/handlers/battles.ts:93-100 | on a decisive result the winner gains a win and the ELO bonus, the loser a loss and the ELO penalty, nobody's draws move, and no third agent's stats change; in a battle against oneself both updates land on the same row |
| Battles.DrawResult | src/handlers/battles.ts:115-118 | on a draw both agents gain a draw and nothing else, nobody else changes, and no pack is awarded; in a battle against oneself the one row gains two draws |
| Battles.CounterAfterAccept | src/handlers/battles.ts:103-114 | the winner's streak counter moves up one and drops to 0 on reaching three, everyone else's stays, and the pack is awarded exactly then |
| Battles.AcceptKeepsStreaksBounded | src/handlers/battles.ts:103-114 | every streak counter stays in 0..2, and a pack is awarded exactly when the winner's counter was at 2 |
| Battles.DeclineBattle | src/handlers/battles.ts:141-147 | always reports success; the battle with that id addressed to the agent is declined whatever its status, and nothing else changes |
| Battles.AcceptAfterDeclineFails | src/handlers/battles.ts:37-42 | a declined battle can no longer be accepted |
| Trading.RequestTrade | src/handlers/trading.ts:7-32 | refused iff some offered card is not the requester's, naming the first such card and creating nothing; wanted cards are not checked; otherwise one pending trade with both lists as given under a new id, and apart from the trade and the id counter the state is the one `getOrCreateAgent` leaves |
| Trading.StoreTrade | src/handlers/trading.ts:20-24 | the trade is stored under the next id, which no trade had under `Valid`, and nothing else changes |
| Trading.Exchange | src/handlers/trading.ts:44-58 | the card swap, the status change and the four stat updates, column by column |
| Trading.AcceptTrade | src/handlers/trading.ts:34-85 | refused with no change unless the trade is pending and addressed to the agent; otherwise cards change hands as the swap rule says and the trade is accepted |
| Trading.AcceptTradeSwapsOwners | src/handlers/trading.ts:44-50 | the proposer owns every wanted card, the accepter every offered card not also wanted, and every other card keeps its owner |
| Trading.SecondAcceptFails | src/handlers/trading.ts:35-52 | accepting the same trade again fails and changes nothing |
| Trading.AcceptTradeStats | src/handlers/trading.ts:53-58 | trades_completed moves by one for each party; cards_collected moves by the wanted count for the accepter and the offered count for the proposer; no third agent moves |
| Trading.CatalogLeavesTradeStatsAlone | src/handlers/ux/achievements.ts:9-52 | no predefined achievement rewards trades_completed or cards_collected |
| Trading.AcceptTradeKeepsValid | src/handlers/trading.ts:34-85 | accepting keeps `Valid` |
| Trading.DeclineTrade | src/handlers/trading.ts:87-93 | always reports success; the trade with that id addressed to the agent is declined whatever its status, and nothing else changes |
| Trading.AcceptAfterDeclineFails | src/handlers/trading.ts:35-39 | a declined trade can no longer be accepted |
| DailyLogin.CheckAndGiveDailyLoginPack | src/utils/daily-login.ts:11-43 | nothing for an unknown agent; otherwise a pack is given iff the day is new, which holds iff the last date is missing, empty or not today; `packGiven` always equals `isNewDay` |
| DailyLogin.NewDayGivesOnePack | src/utils/daily-login.ts:29-39 | on a new day the agent holds exactly one more standard pack and nobody else's packs change |
| DailyLogin.SecondCallSameDay | src/utils/daily-login.ts:27-42 | a second call on the same day gives nothing and changes nothing |
| DailyLogin.NextDayGivesAgain | src/utils/daily-login.ts:27-39 | a call on a different day gives the pack again |
| DailyLogin.AddDailyLoginInfo | src/utils/daily-login.ts:51-116 | the response is returned as it is iff no pack was given; with a pack, a missing or empty text gives a fresh body, and the new body carries the bonus object with its fixed message unless the text parses to a JSON array, or to an object whose `result` is an array: serialisation drops the property added to the array; text that is kept is the original |
| DailyLogin.NoPackNoChange | src/utils/daily-login.ts:11-52 | the response comes back untouched exactly when the agent is unknown or has already logged in today |

## Left out

- SQL, the JSON response envelopes and JSON (de)serialisation: replies are Dafny datatypes, and card lists, requirements and rewards are records.
- uuidv4: ids come from the `nextId` counter, and `Valid` carries the uniqueness the source assumes.
- Timestamps: `created_at` order is insertion order, so rows created in the same instant are not modelled.
- `getOrCreateAgent` and `createPack` live in `src/database.ts`, which is not part of this model. `EnsureAgent` takes the resolved internal id, so the mapping from Moltbook ids is not modelled, and one id stands for both. The friends, messages and trading handlers store the internal id that `getOrCreateAgent` returns. `handleBattleChallenge` does not (see Battles.Challenge below). `CreatePack` adds one unopened pack.
- Power calculation and the random roll of `handleBattleAccept`: both final powers are parameters. The ELO constants are parameters too, because `config.js` is not part of this model.
- The card-detail joins of `handleBattleAccept`, `getDeck` and `getActiveDeck`. The model keeps only the join with the challenger card, which can make an accept fail.
- `getDecks`, `getDeck`, `getAllAchievements`, `getUserAchievements`, `getRecentConversations` and `src/handlers/ux/profile.ts`: read-only listings and aggregates outside the modelled core.
- `updateQuestProgress`: quests are not part of this model, and the call is a no-op.
- The try/catch around the achievement checks of a trade accept: the model has no failing statements to catch.
- `JSON.parse` and `JSON.stringify` in `addDailyLoginInfo`: how the text parses is a parameter, and the new response is described by its shape rather than its text.
- DailyLogin.AddDailyLoginInfo: takes the handlers to run in strict mode, so writing `daily_login` into a truthy primitive `result` throws and the catch keeps the original text.
- Achievements.CheckAchievements: the candidate scan at src/handlers/ux/achievements.ts:165-170 has no `ORDER BY`. The model takes its rows in insertion order. That order fixes the order of the reply's names, the award rows and the notifications. SQLite's actual order for such a scan is unspecified.
- Concurrency, `src/cron-jobs.ts` and server startup.
- Achievement pack rewards grant nothing, as in the source, whose pack branch is empty.
- Achievements.ApplyReward: takes the column a stat reward names to exist. The one predefined stat reward names `karma`. If `agent_stats` had no such column, the `UPDATE` at src/handlers/ux/achievements.ts:219 would throw after the award row and notification were inserted, and the model does not cover that.
- GameState.EnsureAgent: for a known agent, writes the passed name over the stored one, as tests/ux.test.ts:139-140 expects. The comment at src/handlers/ux/friends.ts:13 says the existing name is kept. The passed name is the id itself, as at every call site of the core.
- Battles.Challenge: stores the opponent as the defender, as src/handlers/battles.ts:22 does with the raw `opponent` argument. src/handlers/battles.ts:16 discards the agent `getOrCreateAgent` returns. The other handlers store that agent's `.id`: src/handlers/ux/friends.ts:15-16, src/handlers/ux/messages.ts:13-14 and src/handlers/trading.ts:18-24. tests/database.test.ts:29-44 shows a new agent's internal id is a fresh UUID, not its Moltbook id. For a newly created opponent, `defender_id` then names no agent row. The defender check at src/handlers/battles.ts:37 compares it with the caller's internal id, so that opponent can never accept. The model has one id per agent, so it cannot show this. Its `opponent in r.game.agents` clause holds only because the two ids are the same in the model.
- Battles.AcceptBattle: the winner is recorded as an `Option`. The source's truthiness test on the winner id agrees with it only because agent ids are never empty.
- Decks.CreateDeck: a new deck is inactive. The schema default for `is_active` is not part of this model and is taken to be false.
- DailyLogin.SecondCallSameDay: requires a non-empty date. The source treats an empty stored date as never logged in.
- Trading.AcceptTradeStats: holds only when no achievement row rewards the column, because the achievement checks that follow may add to it. Trading.CatalogLeavesTradeStatsAlone shows the predefined catalog satisfies this.
- Decks.GetActiveDeck: returns the active deck with the least id when several are active. SQLite's choice among several rows is unspecified.

## Findings

| source | as written | input that shows it | evidently intended | confidence | as-written member | corrected member |
|---|---|---|---|---|---|---|
| src/handlers/ux/friends.ts:19-41 | the duplicate check looks only at the one row `.get()` returns for the pair, taken here as the first in table order | rows [A→B declined, B→A accepted]; A sends a request to B | refuse with "Already friends" or "already pending" when ANY accepted or pending row links the pair | medium, not executed | Friends.AsWrittenAllowsSecondLiveRow | Friends.SendKeepsOneLivePerPair |

In the source, a trade accept adds the number of wanted cards to the
accepter's `cards_collected` and the number of offered cards to the
proposer's. This is the reverse of the comment above it, which speaks of
"new cards acquired". The model keeps the source's behaviour
(`Trading.TradeDelta`, `Trading.AcceptTradeStats`).

=== FILE: achievements.dfy ===
/** Achievements (src/handlers/ux/achievements.ts): a fixed catalog, threshold
    checks against an agent's progress, and awards that are never repeated. */
module Achievements {
  import opened GameState
  import opened Ordering
  import Notifications

  /** An entry of the predefined catalog: an achievement row without its id. */
  datatype Definition = Definition(
    name: string, description: string, category: string, requirement: Requirement, reward: Reward)

  /** ACHIEVEMENTS. Requirements list (battles completed, wins, cards collected,
      friends made, trades completed), 0 standing for an absent key. */
  function Catalog(): seq<Definition>
  {
    [
      Definition("First Battle", "Complete your first battle", "battle",
                 Requirement(1, 0, 0, 0, 0), PackReward(Standard)),
      Definition("Battle Master", "Win 10 battles", "battle",
                 Requirement(0, 10, 0, 0, 0), PackReward(Premium)),
      Definition("Collector", "Collect 50 cards", "collection",
                 Requirement(0, 0, 50, 0, 0), PackReward(Legendary)),
      Definition("Social Butterfly", "Make 5 friends", "social",
                 Requirement(0, 0, 0, 5, 0), StatReward(Karma, 100)),
      Definition("Trade Guru", "Complete 10 trades", "trading",
                 Requirement(0, 0, 0, 0, 10), PackReward(Premium)),
      Definition("Master Trader", "Complete 50 trades", "trading",
                 Requirement(0, 0, 0, 0, 50), PackReward(Legendary))
    ]
  }

  predicate HasName(rows: seq<Achievement>, name: string)
  {
    exists x :: x in rows && x.name == name
  }

  /** No two rows share a name. */
  ghost predicate UniqueNames(rows: seq<Achievement>)
  {
    forall i, j :: 0 <= i < j < |rows| ==> rows[i].name != rows[j].name
  }

  lemma CatalogNamesDistinct()
    ensures DistinctNames(Catalog())
  {
  }

  /** No two definitions share a name. */
  ghost predicate DistinctNames(defs: seq<Definition>)
  {
    forall i, j :: 0 <= i < j < |defs| ==> defs[i].name != defs[j].name
  }

  lemma DistinctNamesTail(defs: seq<Definition>)
    requires |defs| > 0 && DistinctNames(defs)
    ensures DistinctNames(defs[1..])
  {
    forall i, j | 0 <= i < j < |defs[1..]| ensures defs[1..][i].name != defs[1..][j].name {
      assert defs[1..][i] == defs[i + 1] && defs[1..][j] == defs[j + 1];
    }
  }

  /** One step of initAchievements: the definition is inserted under a
      fresh id unless a row already has its name. */
  function InitOne(g: Game, d: Definition): (r: Game)
    ensures HasName(g.achievements, d.name) ==> r == g
    ensures !HasName(g.achievements, d.name) ==>
      r.achievements == g.achievements + [Achievement(g.nextId, d.name, d.description, d.category, d.requirement, d.reward)]
    ensures r.nextId == g.nextId + (|r.achievements| - |g.achievements|)
    ensures r.(achievements := g.achievements, nextId := g.nextId) == g
  {
    if HasName(g.achievements, d.name) then g
    else g.(achievements := g.achievements + [Achievement(g.nextId, d.name, d.description, d.category,
                                                          d.requirement, d.reward)],
            nextId := g.nextId + 1)
  }

  /** The loop of initAchievements over `defs`. */
  function InitFrom(g: Game, defs: seq<Definition>): (r: Game)
    decreases |defs|
    ensures |g.achievements| <= |r.achievements| && r.achievements[..|g.achievements|] == g.achievements
    ensures forall d :: d in defs ==> HasName(r.achievements, d.name)
    ensures r.nextId == g.nextId + (|r.achievements| - |g.achievements|)
    ensures NumberedFrom(r.achievements, |g.achievements|, g.nextId)
    ensures r.(achievements := g.achievements, nextId := g.nextId) == g
  {
    if |defs| == 0 then g
    else
      var g1 := InitOne(g, defs[0]);
      var r := InitFrom(g1, defs[1..]);
      assert HasName(g1.achievements, defs[0].name);
      assert forall x :: x in g1.achievements ==> x in r.achievements by {
        forall x | x in g1.achievements ensures x in r.achievements {
          var i :| 0 <= i < |g1.achievements| && g1.achievements[i] == x;
          assert r.achievements[..|g1.achievements|][i] == x;
        }
      }
      assert r.achievements[..|g.achievements|] == g.achievements by {
        assert r.achievements[..|g.achievements|] == r.achievements[..|g1.achievements|][..|g.achievements|];
        assert g1.achievements[..|g.achievements|] == g.achievements;
      }
      assert forall d :: d in defs ==> d == defs[0] || d in defs[1..];
      if HasName(g.achievements, defs[0].name) then r
      else
        ShiftedIds(g.achievements, g1.achievements, r.achievements, g.nextId);
        r
  }

  /** The catalog entry a row was inserted from. */
  function DefOf(x: Achievement): Definition
  {
    Definition(x.name, x.description, x.category, x.requirement, x.reward)
  }

  /** The catalog entries a sequence of rows was inserted from. */
  function Defs(xs: seq<Achievement>): (r: seq<Definition>)
    ensures |r| == |xs|
  {
    if |xs| == 0 then [] else [DefOf(xs[0])] + Defs(xs[1..])
  }

  /** The definitions, in order, whose names no row carries yet. */
  function Missing(rows: seq<Achievement>, defs: seq<Definition>): (r: seq<Definition>)
    ensures forall d :: d in r <==> d in defs && !HasName(rows, d.name)
  {
    if |defs| == 0 then []
    else
      assert forall d :: d in defs <==> d == defs[0] || d in defs[1..];
      if HasName(rows, defs[0].name) then Missing(rows, defs[1..])
      else [defs[0]] + Missing(rows, defs[1..])
  }

  /** A row whose name no definition uses does not change what is missing. */
  lemma {:induction false} MissingIgnores(rows: seq<Achievement>, x: Achievement, defs: seq<Definition>)
    decreases |defs|
    requires forall d :: d in defs ==> d.name != x.name
    ensures Missing(rows + [x], defs) == Missing(rows, defs)
  {
    if |defs| > 0 {
      assert defs[0] in defs;
      assert HasName(rows + [x], defs[0].name) == HasName(rows, defs[0].name) by {
        if HasName(rows + [x], defs[0].name) {
          var y :| y in rows + [x] && y.name == defs[0].name;
          assert y in rows;
        }
        if HasName(rows, defs[0].name) {
          var y :| y in rows && y.name == defs[0].name;
          assert y in rows + [x];
        }
      }
      MissingIgnores(rows, x, defs[1..]);
    }
  }

  /** The loop appends exactly the definitions whose names were missing, in
      order. */
  lemma {:induction false} InitFromAppendsMissing(g: Game, defs: seq<Definition>)
    decreases |defs|
    requires DistinctNames(defs)
    ensures Defs(InitFrom(g, defs).achievements[|g.achievements|..]) == Missing(g.achievements, defs)
  {
    if |defs| > 0 {
      var g1 := InitOne(g, defs[0]);
      var r := InitFrom(g1, defs[1..]);
      assert InitFrom(g, defs) == r;
      DistinctNamesTail(defs);
      InitFromAppendsMissing(g1, defs[1..]);
      if !HasName(g.achievements, defs[0].name) {
        var x := g1.achievements[|g.achievements|];
        assert g1.achievements == g.achievements + [x];
        AppendedRow(g.achievements, x, r.achievements, defs);
      }
    }
  }

  /** The inductive step of InitFromAppendsMissing when the first definition
      is inserted as row `x`. */
  lemma AppendedRow(rows: seq<Achievement>, x: Achievement, after: seq<Achievement>, defs: seq<Definition>)
    requires |defs| > 0 && DistinctNames(defs) && DefOf(x) == defs[0] && !HasName(rows, x.name)
    requires |rows| + 1 <= |after| && after[..|rows| + 1] == rows + [x]
    requires Defs(after[|rows| + 1..]) == Missing(rows + [x], defs[1..])
    ensures Defs(after[|rows|..]) == Missing(rows, defs)
  {
    forall d | d in defs[1..] ensures d.name != x.name {
      var k :| 0 <= k < |defs[1..]| && defs[1..][k] == d;
      assert defs[k + 1] == d;
    }
    MissingIgnores(rows, x, defs[1..]);
    var tail := after[|rows| + 1..];
    assert after[|rows|..] == [x] + tail by {
      assert after[|rows|] == (rows + [x])[|rows|];
    }
    assert ([x] + tail)[1..] == tail;
  }

  /** The rows from position `from` on carry consecutive ids starting at `base`. */
  ghost predicate NumberedFrom(rows: seq<Achievement>, from: nat, base: int)
  {
    forall i :: from <= i < |rows| ==> rows[i].id == base + (i - from)
  }

  /** Rows numbered from `base + 1` after a row numbered `base` are numbered
      from `base`. */
  lemma ShiftedIds(rows: seq<Achievement>, rows1: seq<Achievement>, after: seq<Achievement>, base: int)
    requires |rows1| == |rows| + 1 && rows1[..|rows|] == rows && rows1[|rows|].id == base
    requires |rows1| <= |after| && after[..|rows1|] == rows1
    requires NumberedFrom(after, |rows1|, base + 1)
    ensures NumberedFrom(after, |rows|, base)
  {
    assert after[|rows|] == rows1[|rows|];
  }

  /** Inserting a definition keeps the game well formed. */
  lemma InitOneKeepsValid(g: Game, d: Definition)
    ensures Valid(g) ==> Valid(InitOne(g, d))
  {
  }

  /** The loop keeps the game well formed. */
  lemma {:induction false} InitFromKeepsValid(g: Game, defs: seq<Definition>)
    decreases |defs|
    ensures Valid(g) ==> Valid(InitFrom(g, defs))
  {
    if |defs| > 0 {
      InitOneKeepsValid(g, defs[0]);
      InitFromKeepsValid(InitOne(g, defs[0]), defs[1..]);
    }
  }

  /** initAchievements: afterwards every catalog name has a row, rows are only
      appended, and what is appended is exactly the catalog entries whose names
      were missing, in catalog order, under consecutive fresh ids. */
  function InitAchievements(g: Game): (r: Game)
    ensures forall d :: d in Catalog() ==> HasName(r.achievements, d.name)
    ensures |g.achievements| <= |r.achievements| && r.achievements[..|g.achievements|] == g.achievements
    ensures Defs(r.achievements[|g.achievements|..]) == Missing(g.achievements, Catalog())
    ensures NumberedFrom(r.achievements, |g.achievements|, g.nextId)
    ensures r.nextId == g.nextId + (|r.achievements| - |g.achievements|)
    ensures Valid(g) ==> Valid(r)
    ensures r.(achievements := g.achievements, nextId := g.nextId) == g
  {
    CatalogNamesDistinct();
    InitFromAppendsMissing(g, Catalog());
    InitFromKeepsValid(g, Catalog());
    InitFrom(g, Catalog())
  }

  /** Once every name in `defs` has a row, the loop inserts nothing. */
  lemma {:induction false} InitFromNoop(g: Game, defs: seq<Definition>)
    decreases |defs|
    requires forall d :: d in defs ==> HasName(g.achievements, d.name)
    ensures InitFrom(g, defs) == g
  {
    if |defs| > 0 {
      assert defs[0] in defs;
      InitFromNoop(g, defs[1..]);
    }
  }

  /** initAchievements is idempotent. */
  lemma InitIdempotent(g: Game)
    ensures InitAchievements(InitAchievements(g)) == InitAchievements(g)
  {
    InitFromNoop(InitAchievements(g), Catalog());
  }

  /** The loop keeps names unique when the definitions' names are distinct. */
  lemma {:induction false} InitFromKeepsUniqueNames(g: Game, defs: seq<Definition>)
    decreases |defs|
    requires UniqueNames(g.achievements)
    requires DistinctNames(defs)
    ensures UniqueNames(InitFrom(g, defs).achievements)
  {
    if |defs| > 0 {
      var g1 := InitOne(g, defs[0]);
      InitOneKeepsUniqueNames(g, defs[0]);
      DistinctNamesTail(defs);
      InitFromKeepsUniqueNames(g1, defs[1..]);
    }
  }

  /** One step keeps names unique. */
  lemma InitOneKeepsUniqueNames(g: Game, d: Definition)
    requires UniqueNames(g.achievements)
    ensures UniqueNames(InitOne(g, d).achievements)
  {
    if !HasName(g.achievements, d.name) {
      AppendFreshName(g.achievements, Achievement(g.nextId, d.name, d.description, d.category, d.requirement, d.reward));
    }
  }

  /** Appending a row under a name not yet present keeps names unique. */
  lemma AppendFreshName(rows: seq<Achievement>, x: Achievement)
    requires UniqueNames(rows) && !HasName(rows, x.name)
    ensures UniqueNames(rows + [x])
  {
    forall i, j | 0 <= i < j < |rows + [x]| ensures (rows + [x])[i].name != (rows + [x])[j].name {
      if j == |rows| {
        assert rows[i] in rows;
      }
    }
  }

  /** Starting from a table without duplicate names (an empty one, say),
      initAchievements leaves exactly one row per catalog name: every name has a
      row and no name has two. */
  lemma InitOneRowPerName(g: Game)
    requires UniqueNames(g.achievements)
    ensures forall d :: d in Catalog() ==> HasName(InitAchievements(g).achievements, d.name)
    ensures UniqueNames(InitAchievements(g).achievements)
  {
    CatalogNamesDistinct();
    InitFromKeepsUniqueNames(g, Catalog());
  }

  /** The achievements `a` has earned: the achievement ids of `a`'s award rows. */
  function EarnedBy(awards: map<RowId, Award>, a: AgentId): set<RowId>
  {
    set k | k in awards && awards[k].agent == a :: awards[k].achievement
  }

  /** No award row is repeated: an agent earns an achievement at most once. */
  ghost predicate AwardedOnce(awards: map<RowId, Award>)
  {
    forall k, j :: k in awards && j in awards && awards[k] == awards[j] ==> k == j
  }

  function AchievementId(x: Achievement): int { x.id }

  /** Row-id order, the order the table was filled in. */
  ghost predicate IdsAscending(rows: seq<Achievement>)
  {
    AscendingBy(rows, AchievementId)
  }

  /** `WHERE id NOT IN (SELECT achievement_id FROM agent_achievements WHERE agent_id = ?)`. */
  function Unearned(rows: seq<Achievement>, earned: set<RowId>): (r: seq<Achievement>)
    ensures forall x :: x in r <==> x in rows && x.id !in earned
    ensures IdsAscending(rows) ==> IdsAscending(r)
  {
    if |rows| == 0 then []
    else
      var rest := Unearned(rows[1..], earned);
      assert forall x :: x in rows <==> x == rows[0] || x in rows[1..];
      if rows[0].id !in earned then
        assert IdsAscending(rows) ==> forall x :: x in rest ==> rows[0].id < x.id;
        [rows[0]] + rest
      else rest
  }

  /** `ORDER BY category, name`. */
  function ByCategoryThenName(x: Achievement, y: Achievement): bool
  {
    (TextLe(x.category, y.category) && x.category != y.category)
    || (x.category == y.category && TextLe(x.name, y.name))
  }

  lemma ByCategoryThenNameIsTotalPreorder()
    ensures TotalPreorder(ByCategoryThenName)
  {
    forall x, y ensures ByCategoryThenName(x, y) || ByCategoryThenName(y, x) {
      TextLeTotal(x.category, y.category);
      TextLeTotal(x.name, y.name);
    }
    forall x, y, z | ByCategoryThenName(x, y) && ByCategoryThenName(y, z) ensures ByCategoryThenName(x, z) {
      if TextLe(x.category, y.category) && TextLe(y.category, z.category) {
        TextLeTransitive(x.category, y.category, z.category);
      }
      if x.category == z.category && x.category != y.category {
        TextLeAntisymmetric(x.category, y.category);
      }
      if x.category == y.category && y.category == z.category {
        TextLeTransitive(x.name, y.name, z.name);
      }
    }
  }

  /** getAvailableAchievements: exactly the rows `a` has not earned, ordered by
      category and then name. */
  function GetAvailableAchievements(g: Game, a: AgentId): (r: seq<Achievement>)
    ensures forall x :: x in r <==> x in g.achievements && x.id !in EarnedBy(g.awards, a)
    ensures multiset(r) == multiset(Unearned(g.achievements, EarnedBy(g.awards, a)))
    ensures SortedBy(r, ByCategoryThenName)
  {
    var rows := Unearned(g.achievements, EarnedBy(g.awards, a));
    ByCategoryThenNameIsTotalPreorder();
    SortBySorted(rows, ByCategoryThenName);
    var r := SortBy(rows, ByCategoryThenName);
    assert forall x :: x in r <==> x in multiset(rows);
    r
  }

  /** What checkAchievements reads before its loop: the stats row (if any),
      the accepted friend rows the agent sent, and the cards it owns. */
  datatype Progress = Progress(stats: Option<Stats>, friends: nat, cards: nat)

  /** `SELECT COUNT(*) FROM friends WHERE agent_id = ? AND status = 'accepted'`. */
  function FriendsMade(fs: seq<Friendship>, a: AgentId): nat
  {
    if |fs| == 0 then 0
    else (if fs[0].sender == a && fs[0].status == Accepted then 1 else 0) + FriendsMade(fs[1..], a)
  }

  function ProgressOf(g: Game, a: AgentId): Progress
  {
    Progress(if a in g.stats then Some(g.stats[a]) else None, FriendsMade(g.friends, a), OwnedCount(g.cards, a))
  }

  /** The five threshold tests; a threshold of 0 is an absent key and never
      qualifies, and the stat-based ones need a stats row. */
  predicate Qualifies(req: Requirement, p: Progress)
  {
    || (req.battlesCompleted != 0 && p.stats.Some?
        && p.stats.value.wins + p.stats.value.losses + p.stats.value.draws >= req.battlesCompleted)
    || (req.wins != 0 && p.stats.Some? && p.stats.value.wins >= req.wins)
    || (req.cardsCollected != 0 && p.cards >= req.cardsCollected)
    || (req.friendsMade != 0 && p.friends >= req.friendsMade)
    || (req.tradesCompleted != 0 && p.stats.Some? && p.stats.value.tradesCompleted >= req.tradesCompleted)
  }

  /** The candidates that qualify, in insertion order. */
  function Qualifying(cands: seq<Achievement>, p: Progress): (r: seq<Achievement>)
    ensures forall x :: x in r <==> x in cands && Qualifies(x.requirement, p)
  {
    if |cands| == 0 then []
    else
      assert forall x :: x in cands <==> x == cands[0] || x in cands[1..];
      (if Qualifies(cands[0].requirement, p) then [cands[0]] else []) + Qualifying(cands[1..], p)
  }

  function Names(xs: seq<Achievement>): (r: seq<string>)
    ensures |r| == |xs| && forall i :: 0 <= i < |xs| ==> r[i] == xs[i].name
  {
    seq(|xs|, i requires 0 <= i < |xs| => xs[i].name)
  }

  function IdsOf(xs: seq<Achievement>): set<RowId>
  {
    set x | x in xs :: x.id
  }

  /** What a reward adds to stat `h`: the amount of a stat reward on `h`. */
  function Gain(rw: Reward, h: StatField): int
  {
    if rw.StatReward? && rw.stat == h then rw.amount else 0
  }

  /** The total gain on `h` of the rewards of `xs`. */
  function TotalGain(xs: seq<Achievement>, h: StatField): int
  {
    if |xs| == 0 then 0 else Gain(xs[0].reward, h) + TotalGain(xs[1..], h)
  }

  /** `UPDATE agent_stats SET <stat> = <stat> + amount WHERE agent_id = ?` for
      a stat reward; a pack reward grants nothing, as the source leaves that
      branch empty. */
  function ApplyReward(stats: map<AgentId, Stats>, a: AgentId, rw: Reward): (r: map<AgentId, Stats>)
    ensures r.Keys == stats.Keys
    ensures forall b, h :: b in stats ==> StatOf(r[b], h) == StatOf(stats[b], h) + (if b == a then Gain(rw, h) else 0)
  {
    match rw
    case StatReward(f, n) => BumpStat(stats, a, f, n)
    case _ => stats
  }

  /** The "Achievement Unlocked!" notification of `x` for `a`. */
  function Announcement(id: RowId, a: AgentId, x: Achievement): (r: Notification)
    ensures AnnouncedTo(r, a, x) && r.id == id
  {
    Notification(id, a, "achievement", "Achievement Unlocked!", "You unlocked: " + x.name,
                 AchievementData(x.name, x.reward), false)
  }

  /** `n` is an unread notification of `a` announcing `x`. */
  predicate AnnouncedTo(n: Notification, a: AgentId, x: Achievement)
  {
    n.recipient == a && !n.isRead && n.data == AchievementData(x.name, x.reward)
  }

  /** One award: the agent_achievements row under the next id, the
      notification under the one after, and the reward. */
  function AwardOne(g: Game, a: AgentId, x: Achievement): (r: Game)
    ensures r.awards == g.awards[g.nextId := Award(a, x.id)]
    ensures r.notifications == g.notifications + [Announcement(g.nextId + 1, a, x)]
    ensures r.stats == ApplyReward(g.stats, a, x.reward)
    ensures r.nextId == g.nextId + 2
    ensures r.(awards := g.awards, notifications := g.notifications, stats := g.stats, nextId := g.nextId) == g
  {
    var g1 := g.(awards := g.awards[g.nextId := Award(a, x.id)], nextId := g.nextId + 1);
    var g2 := Notifications.Create(g1, a, "achievement", "Achievement Unlocked!", "You unlocked: " + x.name,
                                   AchievementData(x.name, x.reward)).game;
    g2.(stats := ApplyReward(g2.stats, a, x.reward))
  }

  /** The awards of checkAchievements' loop, one after the other. The loop
      tests each candidate against a progress snapshot read before it starts,
      so awarding the qualifying candidates in order is the same as the loop. */
  function AwardAll(g: Game, a: AgentId, xs: seq<Achievement>): Game
    decreases |xs|
  {
    if |xs| == 0 then g else AwardAll(AwardOne(g, a, xs[0]), a, xs[1..])
  }

  /** The award rows of the awards of `xs`, under every other id from `id` on. */
  function AddAwards(awards: map<RowId, Award>, id: RowId, a: AgentId, xs: seq<Achievement>): map<RowId, Award>
    decreases |xs|
  {
    if |xs| == 0 then awards else AddAwards(awards[id := Award(a, xs[0].id)], id + 2, a, xs[1..])
  }

  /** The notifications of the awards of `xs`, under every other id from `id + 1` on. */
  function Announcements(id: RowId, a: AgentId, xs: seq<Achievement>): (r: seq<Notification>)
    decreases |xs|
    ensures |r| == |xs|
  {
    if |xs| == 0 then [] else [Announcement(id + 1, a, xs[0])] + Announcements(id + 2, a, xs[1..])
  }

  /** The i-th announcement announces the i-th achievement to `a`. */
  lemma {:induction false} AnnouncementsAnnounce(id: RowId, a: AgentId, xs: seq<Achievement>)
    decreases |xs|
    ensures forall i :: 0 <= i < |xs| ==> AnnouncedTo(Announcements(id, a, xs)[i], a, xs[i])
  {
    if |xs| > 0 {
      AnnouncementsAnnounce(id + 2, a, xs[1..]);
      var r := Announcements(id, a, xs);
      assert forall i :: 1 <= i < |xs| ==> r[i] == Announcements(id + 2, a, xs[1..])[i - 1] && xs[i] == xs[1..][i - 1];
    }
  }

  /** The i-th announcement has id `id + 1 + 2 * i`. */
  lemma {:induction false} AnnouncementIds(id: RowId, a: AgentId, xs: seq<Achievement>)
    decreases |xs|
    ensures forall i :: 0 <= i < |xs| ==> Announcements(id, a, xs)[i].id == id + 1 + 2 * i
  {
    if |xs| > 0 {
      AnnouncementIds(id + 2, a, xs[1..]);
      var r := Announcements(id, a, xs);
      assert forall i :: 1 <= i < |xs| ==> r[i] == Announcements(id + 2, a, xs[1..])[i - 1];
    }
  }

  /** The stats after the rewards of `xs`, in order. */
  function AddRewards(stats: map<AgentId, Stats>, a: AgentId, xs: seq<Achievement>): map<AgentId, Stats>
    decreases |xs|
  {
    if |xs| == 0 then stats else AddRewards(ApplyReward(stats, a, xs[0].reward), a, xs[1..])
  }

  /** The awards add one award row per achievement. */
  lemma {:induction false} AwardAllAwards(g: Game, a: AgentId, xs: seq<Achievement>)
    decreases |xs|
    ensures AwardAll(g, a, xs).awards == AddAwards(g.awards, g.nextId, a, xs)
  {
    if |xs| > 0 {
      AwardAllAwards(AwardOne(g, a, xs[0]), a, xs[1..]);
    }
  }

  /** The awards use two ids each. */
  lemma {:induction false} AwardAllIds(g: Game, a: AgentId, xs: seq<Achievement>)
    decreases |xs|
    ensures AwardAll(g, a, xs).nextId == g.nextId + 2 * |xs|
  {
    if |xs| > 0 {
      AwardAllIds(AwardOne(g, a, xs[0]), a, xs[1..]);
    }
  }

  /** One award followed by the announcements of `rest` announces `[x] + rest`. */
  lemma AwardOneAnnounces(g: Game, a: AgentId, xs: seq<Achievement>)
    requires |xs| > 0
    ensures var g1 := AwardOne(g, a, xs[0]);
      g1.notifications + Announcements(g1.nextId, a, xs[1..]) == g.notifications + Announcements(g.nextId, a, xs)
  {
    var an := [Announcement(g.nextId + 1, a, xs[0])];
    var tail := Announcements(g.nextId + 2, a, xs[1..]);
    assert (g.notifications + an) + tail == g.notifications + (an + tail);
  }

  /** The awards append one announcement each. */
  lemma {:induction false} AwardAllNotifications(g: Game, a: AgentId, xs: seq<Achievement>)
    decreases |xs|
    ensures AwardAll(g, a, xs).notifications == g.notifications + Announcements(g.nextId, a, xs)
  {
    if |xs| > 0 {
      AwardAllNotifications(AwardOne(g, a, xs[0]), a, xs[1..]);
      AwardOneAnnounces(g, a, xs);
    }
  }

  /** The awards apply their rewards in order. */
  lemma {:induction false} AwardAllStats(g: Game, a: AgentId, xs: seq<Achievement>)
    decreases |xs|
    ensures AwardAll(g, a, xs).stats == AddRewards(g.stats, a, xs)
  {
    if |xs| > 0 {
      AwardAllStats(AwardOne(g, a, xs[0]), a, xs[1..]);
    }
  }

  /** The awards touch no other table. */
  lemma {:induction false} AwardAllFrame(g: Game, a: AgentId, xs: seq<Achievement>)
    decreases |xs|
    ensures AwardAll(g, a, xs).(awards := g.awards, notifications := g.notifications,
                               stats := g.stats, nextId := g.nextId) == g
  {
    if |xs| > 0 {
      AwardAllFrame(AwardOne(g, a, xs[0]), a, xs[1..]);
    }
  }

  lemma AwardsOfOne(awards: map<RowId, Award>, k: RowId, a: AgentId, x: RowId)
    requires k !in awards
    ensures forall b :: EarnedBy(awards[k := Award(a, x)], b) == EarnedBy(awards, b) + (if b == a then {x} else {})
  {
    var m := awards[k := Award(a, x)];
    forall b ensures EarnedBy(m, b) == EarnedBy(awards, b) + (if b == a then {x} else {}) {
      forall y | y in EarnedBy(m, b) ensures y in EarnedBy(awards, b) + (if b == a then {x} else {}) {
        var j :| j in m && m[j].agent == b && m[j].achievement == y;
        if j != k {
          assert j in awards && awards[j].agent == b;
        }
      }
      forall y | y in EarnedBy(awards, b) ensures y in EarnedBy(m, b) {
        var j :| j in awards && awards[j].agent == b && awards[j].achievement == y;
        assert j in m && m[j] == awards[j];
      }
      if b == a {
        assert k in m && m[k].agent == b;
      }
    }
  }

  /** With fresh ids, the awards of `xs` keep the existing rows and add one
      row each. */
  lemma {:induction false} AddAwardsKeeps(awards: map<RowId, Award>, id: RowId, a: AgentId, xs: seq<Achievement>)
    decreases |xs|
    requires forall k :: k in awards ==> k < id
    ensures var r := AddAwards(awards, id, a, xs);
      && (forall k :: k in awards ==> k in r && r[k] == awards[k])
      && |r| == |awards| + |xs|
  {
    if |xs| > 0 {
      var m := awards[id := Award(a, xs[0].id)];
      assert id !in awards;
      AddAwardsKeeps(m, id + 2, a, xs[1..]);
    }
  }

  /** With fresh ids, the awards of `xs` grow `a`'s earned set by exactly
      their ids and leave everyone else's alone. */
  lemma {:induction false} AddAwardsEarned(awards: map<RowId, Award>, id: RowId, a: AgentId, xs: seq<Achievement>)
    decreases |xs|
    requires forall k :: k in awards ==> k < id
    ensures forall b :: EarnedBy(AddAwards(awards, id, a, xs), b) == EarnedBy(awards, b) + (if b == a then IdsOf(xs) else {})
  {
    if |xs| > 0 {
      var m := awards[id := Award(a, xs[0].id)];
      AwardsOfOne(awards, id, a, xs[0].id);
      AddAwardsEarned(m, id + 2, a, xs[1..]);
      assert IdsOf(xs) == {xs[0].id} + IdsOf(xs[1..]) by {
        assert forall x :: x in xs <==> x == xs[0] || x in xs[1..];
      }
    }
  }

  /** With fresh ids, awards of distinct achievements that `a` has not earned
      never repeat an award row. */
  lemma {:induction false} AddAwardsOnce(awards: map<RowId, Award>, id: RowId, a: AgentId, xs: seq<Achievement>)
    decreases |xs|
    requires forall k :: k in awards ==> k < id
    requires AwardedOnce(awards)
    requires forall i, j :: 0 <= i < j < |xs| ==> xs[i].id != xs[j].id
    requires forall x :: x in xs ==> x.id !in EarnedBy(awards, a)
    ensures AwardedOnce(AddAwards(awards, id, a, xs))
  {
    if |xs| > 0 {
      var x := xs[0];
      var m := awards[id := Award(a, x.id)];
      assert x.id !in EarnedBy(awards, a) by { assert x in xs; }
      assert forall j :: j in awards ==> awards[j] != Award(a, x.id) by {
        forall j | j in awards ensures awards[j] != Award(a, x.id) {
          if awards[j].agent == a {
            assert awards[j].achievement in EarnedBy(awards, a);
          }
        }
      }
      AwardsOfOne(awards, id, a, x.id);
      forall i, j | 0 <= i < j < |xs[1..]| ensures xs[1..][i].id != xs[1..][j].id {
        assert xs[1..][i] == xs[i + 1] && xs[1..][j] == xs[j + 1];
      }
      forall y | y in xs[1..] ensures y.id !in EarnedBy(m, a) {
        var j :| 0 <= j < |xs[1..]| && xs[1..][j] == y;
        assert xs[j + 1] == y && y in xs;
      }
      AddAwardsOnce(m, id + 2, a, xs[1..]);
    }
  }

  /** The rewards of `xs` move each stat of `a` by their total gain on it and
      leave every other agent's stats alone. */
  lemma {:induction false} AddRewardsEffect(stats: map<AgentId, Stats>, a: AgentId, xs: seq<Achievement>)
    decreases |xs|
    ensures AddRewards(stats, a, xs).Keys == stats.Keys
    ensures forall b, h {:trigger StatOf(AddRewards(stats, a, xs)[b], h)} :: b in stats ==>
      StatOf(AddRewards(stats, a, xs)[b], h) == StatOf(stats[b], h) + (if b == a then TotalGain(xs, h) else 0)
  {
    if |xs| > 0 {
      var s1 := ApplyReward(stats, a, xs[0].reward);
      AddRewardsEffect(s1, a, xs[1..]);
      forall b, h | b in stats
        ensures StatOf(AddRewards(stats, a, xs)[b], h) == StatOf(stats[b], h) + (if b == a then TotalGain(xs, h) else 0)
      {
        assert AddRewards(stats, a, xs) == AddRewards(s1, a, xs[1..]);
        assert b in s1;
        assert StatOf(AddRewards(s1, a, xs[1..])[b], h) == StatOf(s1[b], h) + (if b == a then TotalGain(xs[1..], h) else 0);
        assert StatOf(s1[b], h) == StatOf(stats[b], h) + (if b == a then Gain(xs[0].reward, h) else 0);
        assert TotalGain(xs, h) == Gain(xs[0].reward, h) + TotalGain(xs[1..], h);
      }
    }
  }

  /** The achievements checkAchievements may award `a`: the rows it has not
      earned. The scan has no ORDER BY; they are taken in insertion order. */
  function Candidates(g: Game, a: AgentId): seq<Achievement>
  {
    Unearned(g.achievements, EarnedBy(g.awards, a))
  }

  /** checkAchievements: every candidate whose thresholds the progress read at
      the start meets is awarded, in insertion order, and the reply lists their
      names; each award brings one notification to `a` and its stat reward,
      and no other agent's stats move. */
  function CheckAchievements(g: Game, a: AgentId): (r: Outcome<seq<string>>)
    ensures var qs := Qualifying(Candidates(g, a), ProgressOf(g, a));
      && r.reply == Names(qs)
      && r.game.notifications == g.notifications + Announcements(g.nextId, a, qs)
      && r.game.stats.Keys == g.stats.Keys
      && (forall b, h :: b in g.stats ==>
            StatOf(r.game.stats[b], h) == StatOf(g.stats[b], h) + (if b == a then TotalGain(qs, h) else 0))
    ensures r.game.(awards := g.awards, notifications := g.notifications, stats := g.stats, nextId := g.nextId) == g
  {
    var qs := Qualifying(Candidates(g, a), ProgressOf(g, a));
    AwardAllNotifications(g, a, qs);
    AwardAllStats(g, a, qs);
    AwardAllFrame(g, a, qs);
    AddRewardsEffect(g.stats, a, qs);
    Outcome(AwardAll(g, a, qs), Names(qs))
  }

  /** The award rows and ids checkAchievements uses, in terms of its
      qualifying candidates. */
  lemma CheckAchievementsTables(g: Game, a: AgentId)
    ensures var qs := Qualifying(Candidates(g, a), ProgressOf(g, a));
      && CheckAchievements(g, a).game.awards == AddAwards(g.awards, g.nextId, a, qs)
      && CheckAchievements(g, a).game.nextId == g.nextId + 2 * |qs|
      && |CheckAchievements(g, a).reply| == |qs|
  {
    var qs := Qualifying(Candidates(g, a), ProgressOf(g, a));
    AwardAllAwards(g, a, qs);
    AwardAllIds(g, a, qs);
  }

  /** What checkAchievements does to the award rows: existing rows stay, one
      row is added per name in the reply, and nothing changes for other
      agents. */
  lemma CheckAchievementsAwards(g: Game, a: AgentId)
    requires Valid(g)
    ensures var r := CheckAchievements(g, a);
      && (forall k :: k in g.awards ==> k in r.game.awards && r.game.awards[k] == g.awards[k])
      && |r.game.awards| == |g.awards| + |r.reply|
      && (forall b :: b != a ==> EarnedBy(r.game.awards, b) == EarnedBy(g.awards, b))
  {
    var qs := Qualifying(Candidates(g, a), ProgressOf(g, a));
    CheckAchievementsTables(g, a);
    AddAwardsEffect(g.awards, g.nextId, a, qs);
  }

  /** The award rows of `xs` under fresh ids: existing rows stay, one row is
      added each, and nobody but `a` earns anything. */
  lemma AddAwardsEffect(awards: map<RowId, Award>, id: RowId, a: AgentId, xs: seq<Achievement>)
    requires forall k :: k in awards ==> k < id
    ensures var r := AddAwards(awards, id, a, xs);
      && (forall k :: k in awards ==> k in r && r[k] == awards[k])
      && |r| == |awards| + |xs|
      && (forall b :: b != a ==> EarnedBy(r, b) == EarnedBy(awards, b))
  {
    AddAwardsKeeps(awards, id, a, xs);
    AddAwardsEarned(awards, id, a, xs);
  }

  /** A not-yet-earned achievement of the table is earned after
      checkAchievements iff the agent's progress, read at the start, meets one
      of its thresholds. */
  lemma CheckAchievementsEarns(g: Game, a: AgentId)
    requires Valid(g)
    ensures forall x :: x in g.achievements && x.id !in EarnedBy(g.awards, a) ==>
      (x.id in EarnedBy(CheckAchievements(g, a).game.awards, a) <==> Qualifies(x.requirement, ProgressOf(g, a)))
  {
    var p := ProgressOf(g, a);
    var cands := Candidates(g, a);
    var qs := Qualifying(cands, p);
    CheckAchievementsTables(g, a);
    AddAwardsEarned(g.awards, g.nextId, a, qs);
    var earned := EarnedBy(CheckAchievements(g, a).game.awards, a);
    assert earned == EarnedBy(g.awards, a) + IdsOf(qs);
    forall x | x in g.achievements && x.id !in EarnedBy(g.awards, a)
      ensures x.id in earned <==> Qualifies(x.requirement, p)
    {
      if x.id in IdsOf(qs) {
        var y :| y in qs && y.id == x.id;
        SameIdSameRow(g, x, y);
      } else {
        assert x in cands;
      }
    }
  }

  /** Under `Valid`, achievement ids identify rows. */
  lemma SameIdSameRow(g: Game, x: Achievement, y: Achievement)
    requires Valid(g)
    requires x in g.achievements && y in g.achievements && x.id == y.id
    ensures x == y
  {
    var i :| 0 <= i < |g.achievements| && g.achievements[i] == x;
    var j :| 0 <= j < |g.achievements| && g.achievements[j] == y;
    assert i == j;
  }

  /** checkAchievements never repeats an award: it only awards achievements
      the agent has not earned, each once. */
  lemma CheckAchievementsAwardsOnce(g: Game, a: AgentId)
    requires Valid(g) && AwardedOnce(g.awards)
    ensures AwardedOnce(CheckAchievements(g, a).game.awards)
  {
    var qs := Qualifying(Candidates(g, a), ProgressOf(g, a));
    CheckAchievementsTables(g, a);
    QualifyingDistinctIds(g, a);
    AddAwardsOnce(g.awards, g.nextId, a, qs);
  }

  /** The achievements a check awards have distinct ids, because the
      achievements table is in row-id order. */
  lemma QualifyingDistinctIds(g: Game, a: AgentId)
    requires Valid(g)
    ensures var qs := Qualifying(Candidates(g, a), ProgressOf(g, a));
      forall i, j :: 0 <= i < j < |qs| ==> qs[i].id != qs[j].id
  {
    var cands := Candidates(g, a);
    assert IdsAscending(g.achievements);
    QualifyingAscending(cands, ProgressOf(g, a));
  }

  /** checkAchievements keeps `Valid`: its award rows and notifications take
      fresh, increasing ids. */
  lemma CheckAchievementsKeepsValid(g: Game, a: AgentId)
    requires Valid(g)
    ensures Valid(CheckAchievements(g, a).game)
  {
    var qs := Qualifying(Candidates(g, a), ProgressOf(g, a));
    CheckAchievementsTables(g, a);
    var r := CheckAchievements(g, a).game;
    assert r.packs == g.packs && r.battles == g.battles && r.trades == g.trades && r.decks == g.decks;
    assert r.friends == g.friends && r.achievements == g.achievements && r.messages == g.messages;
    assert r.notifications == g.notifications + Announcements(g.nextId, a, qs);
    AddAwardsBelow(g.awards, g.nextId, a, qs);
    AnnouncementsFresh(g, a, qs);
  }

  lemma {:induction false} QualifyingAscending(cands: seq<Achievement>, p: Progress)
    decreases |cands|
    requires IdsAscending(cands)
    ensures IdsAscending(Qualifying(cands, p))
  {
    if |cands| > 0 {
      QualifyingAscending(cands[1..], p);
      assert forall x :: x in Qualifying(cands[1..], p) ==> x in cands[1..];
    }
  }

  /** Announcements appended under `g.nextId` keep the notification ids
      increasing and below the advanced counter. */
  lemma AnnouncementsFresh(g: Game, a: AgentId, qs: seq<Achievement>)
    requires Valid(g)
    ensures var ns := g.notifications + Announcements(g.nextId, a, qs);
      && (forall i :: 0 <= i < |ns| ==> ns[i].id < g.nextId + 2 * |qs|)
      && (forall i, j :: 0 <= i < j < |ns| ==> ns[i].id < ns[j].id)
  {
    var ans := Announcements(g.nextId, a, qs);
    AnnouncementIds(g.nextId, a, qs);
    var ns := g.notifications + ans;
    assert forall i :: 0 <= i < |g.notifications| ==> ns[i] == g.notifications[i];
    assert forall i :: |g.notifications| <= i < |ns| ==> ns[i] == ans[i - |g.notifications|];
  }

  lemma {:induction false} AddAwardsBelow(awards: map<RowId, Award>, id: RowId, a: AgentId, xs: seq<Achievement>)
    decreases |xs|
    requires forall k :: k in awards ==> k < id
    ensures forall k :: k in AddAwards(awards, id, a, xs) ==> k < id + 2 * |xs|
  {
    if |xs| > 0 {
      AddAwardsBelow(awards[id := Award(a, xs[0].id)], id + 2, a, xs[1..]);
    }
  }
}

=== FILE: battles.dfy ===
/** Battles (src/handlers/battles.ts): a challenge with an owned card, then an
    accept that compares two powers and settles wins, losses, draws, ELO and
    the three-win premium-pack streak, or a decline. Both powers are inputs:
    the card power formula and the random roll are not part of this model. */
module Battles {
  import opened GameState

  /** The win streak that earns a premium pack. */
  const StreakForPack: int := 3

  /** handleBattleChallenge: refused, creating nothing, unless the challenger
      owns the card; otherwise the opponent goes through getOrCreateAgent and
      one pending battle between the two is stored under a fresh id. Nothing
      forbids challenging oneself. The defender is the opponent id as passed,
      not the agent getOrCreateAgent returns; the model has one id per agent,
      so the two agree here. */
  function Challenge(g: Game, cfg: Config, a: AgentId, opponent: AgentId, card: CardId): (r: Outcome<Result<RowId>>)
    ensures r.reply.Err? <==> !Owns(g.cards, a, card)
    ensures r.reply.Err? ==> r.reply.error == CardNotOwned(card) && r.game == g
    ensures r.reply.Ok? ==>
      var e := EnsureAgent(g, cfg, opponent);
      && opponent in r.game.agents
      && r.game.battles == g.battles[r.reply.value := Battle(a, opponent, card, None, None, None, None, BattleStatus.Pending)]
      && (Valid(g) ==> r.reply.value !in g.battles)
      && r.game.(battles := e.battles, nextId := e.nextId) == e
  {
    if !Owns(g.cards, a, card) then Outcome(g, Err(CardNotOwned(card)))
    else
      var g1 := EnsureAgent(g, cfg, opponent);
      var id := g1.nextId;
      var b := Battle(a, opponent, card, None, None, None, None, BattleStatus.Pending);
      Outcome(g1.(battles := g1.battles[id := b], nextId := id + 1), Ok(id))
  }

  /** A challenge keeps `Valid`: the new battle and the signup packs take the
      next ids. */
  lemma ChallengeKeepsValid(g: Game, cfg: Config, a: AgentId, opponent: AgentId, card: CardId)
    requires Valid(g)
    ensures Valid(Challenge(g, cfg, a, opponent, card).game)
  {
    if Owns(g.cards, a, card) {
      var e := EnsureAgent(g, cfg, opponent);
      InsertBattleKeepsValid(e, Battle(a, opponent, card, None, None, None, None, BattleStatus.Pending));
    }
  }

  /** Storing a battle under the next id keeps `Valid`. */
  lemma InsertBattleKeepsValid(g: Game, b: Battle)
    requires Valid(g)
    ensures Valid(g.(battles := g.battles[g.nextId := b], nextId := g.nextId + 1))
  {
  }

  /** The battle row `handleBattleAccept` finds: addressed to `a`, pending, and
      with a challenger card that still exists (the query joins the cards
      table on it). */
  predicate Acceptable(g: Game, a: AgentId, id: RowId)
  {
    && id in g.battles
    && g.battles[id].defender == a
    && g.battles[id].status == BattleStatus.Pending
    && g.battles[id].challengerCard in g.cards
  }

  /** The winner rule: the strictly stronger side wins, equal powers draw. */
  function Winner(challenger: AgentId, defender: AgentId, cPow: int, dPow: int): (w: Option<AgentId>)
  {
    if cPow > dPow then Some(challenger) else if dPow > cPow then Some(defender) else None
  }

  /** The rule does not favour either side: exchanging the roles and the
      powers names the same winner, and there is a winner iff the powers
      differ. */
  lemma WinnerIsFair(challenger: AgentId, defender: AgentId, cPow: int, dPow: int)
    ensures Winner(challenger, defender, cPow, dPow) == Winner(defender, challenger, dPow, cPow)
    ensures Winner(challenger, defender, cPow, dPow).None? <==> cPow == dPow
    ensures Winner(challenger, defender, cPow, dPow) == Some(challenger) <==> cPow > dPow || (challenger == defender && cPow != dPow)
  {
  }

  /** The five UPDATEs of a decisive result, in order: wins, losses, the ELO
      bonus and penalty, and the winner's streak counter. */
  function DecisiveStats(stats: map<AgentId, Stats>, cfg: Config, w: AgentId, l: AgentId): (r: map<AgentId, Stats>)
    ensures r.Keys == stats.Keys
    ensures forall b, h :: b in stats ==>
      StatOf(r[b], h) == StatOf(stats[b], h)
        + (if b == w && h == Wins then 1 else 0) + (if b == l && h == Losses then 1 else 0)
        + (if b == w && h == Elo then cfg.eloWinBonus else 0) + (if b == l && h == Elo then -cfg.eloLossPenalty else 0)
        + (if b == w && h == BattlesSinceLastPack then 1 else 0)
  {
    var s1 := BumpStat(stats, w, Wins, 1);
    var s2 := BumpStat(s1, l, Losses, 1);
    var s3 := BumpStat(s2, w, Elo, cfg.eloWinBonus);
    var s4 := BumpStat(s3, l, Elo, -cfg.eloLossPenalty);
    BumpStat(s4, w, BattlesSinceLastPack, 1)
  }

  /** The streak check after a win: with a stats row whose counter has reached
      three, one premium pack for the winner and the counter back to 0. */
  function StreakBonus(g: Game, w: AgentId): (r: Outcome<bool>)
    ensures r.reply <==> w in g.stats && g.stats[w].battlesSinceLastPack >= StreakForPack
    ensures r.reply ==> r.game.packs == g.packs[g.nextId := Pack(w, Premium, false)] && r.game.nextId == g.nextId + 1
    ensures !r.reply ==> r.game == g
    ensures r.game.stats.Keys == g.stats.Keys
    ensures forall b, h :: b in g.stats ==>
      StatOf(r.game.stats[b], h) == if r.reply && b == w && h == BattlesSinceLastPack then 0 else StatOf(g.stats[b], h)
    ensures r.game.(packs := g.packs, stats := g.stats, nextId := g.nextId) == g
  {
    if w in g.stats && g.stats[w].battlesSinceLastPack >= StreakForPack then
      var g1 := CreatePack(g, w, Premium);
      Outcome(g1.(stats := ResetStat(g1.stats, w, BattlesSinceLastPack, 0)), true)
    else Outcome(g, false)
  }

  /** The stats and packs after a completed battle, and whether the streak
      pack was awarded. */
  function Settle(g: Game, cfg: Config, challenger: AgentId, defender: AgentId, winner: Option<AgentId>): (r: Outcome<bool>)
    ensures r.game.(packs := g.packs, stats := g.stats, nextId := g.nextId) == g
    ensures r.game.stats.Keys == g.stats.Keys
    ensures winner.None? ==> !r.reply
  {
    match winner
    case Some(w) =>
      var l := if w == defender then challenger else defender;
      StreakBonus(g.(stats := DecisiveStats(g.stats, cfg, w, l)), w)
    case None =>
      Outcome(g.(stats := BumpStat(BumpStat(g.stats, defender, Draws, 1), challenger, Draws, 1)), false)
  }

  /** What an accepted battle reports. */
  datatype Report = Report(
    challenger: AgentId, defender: AgentId, challengerPower: int, defenderPower: int,
    winner: Option<AgentId>, packAwarded: bool)

  /** handleBattleAccept with the two final powers given: refused with no
      change unless the battle is addressed to `a`, pending and its challenger
      card exists, and then unless `a` owns the card it plays; otherwise the
      battle is completed with the defender's card, both powers and the winner
      recorded, and the result is settled. */
  function AcceptBattle(g: Game, cfg: Config, a: AgentId, id: RowId, card: CardId, cPow: int, dPow: int): (r: Outcome<Result<Report>>)
    ensures r.reply == Err(BattleNotPending) <==> !Acceptable(g, a, id)
    ensures r.reply == Err(DefenderCardNotOwned) <==> Acceptable(g, a, id) && !Owns(g.cards, a, card)
    ensures r.reply.Ok? <==> Acceptable(g, a, id) && Owns(g.cards, a, card)
    ensures r.reply.Err? ==> r.game == g
    ensures r.reply.Ok? ==>
      var b := g.battles[id];
      var w := Winner(b.challenger, a, cPow, dPow);
      && r.reply.value == Report(b.challenger, a, cPow, dPow, w, r.reply.value.packAwarded)
      && r.game.battles == g.battles[id := b.(defenderCard := Some(card), challengerPower := Some(cPow),
                                              defenderPower := Some(dPow), winner := w, status := Completed)]
      && r.game.stats.Keys == g.stats.Keys
      && (r.reply.value.packAwarded ==> w.Some? && r.game.packs == g.packs[g.nextId := Pack(w.value, Premium, false)])
      && (!r.reply.value.packAwarded ==> r.game.packs == g.packs)
    ensures r.game.(battles := g.battles, stats := g.stats, packs := g.packs, nextId := g.nextId) == g
  {
    if !Acceptable(g, a, id) then Outcome(g, Err(BattleNotPending))
    else if !Owns(g.cards, a, card) then Outcome(g, Err(DefenderCardNotOwned))
    else
      var b := g.battles[id];
      var w := Winner(b.challenger, a, cPow, dPow);
      var done := b.(defenderCard := Some(card), challengerPower := Some(cPow), defenderPower := Some(dPow),
                     winner := w, status := Completed);
      var settled := Settle(g.(battles := g.battles[id := done]), cfg, b.challenger, a, w);
      assert settled.reply ==> w.Some?;
      Outcome(settled.game, Ok(Report(b.challenger, a, cPow, dPow, w, settled.reply)))
  }

  /** A second accept of the same battle fails: the first one completed it. */
  lemma SecondAcceptFails(g: Game, cfg: Config, a: AgentId, id: RowId, card: CardId, cPow: int, dPow: int,
                          card2: CardId, cPow2: int, dPow2: int)
    requires AcceptBattle(g, cfg, a, id, card, cPow, dPow).reply.Ok?
    ensures var once := AcceptBattle(g, cfg, a, id, card, cPow, dPow).game;
      AcceptBattle(once, cfg, a, id, card2, cPow2, dPow2) == Outcome(once, Err(BattleNotPending))
  {
  }

  /** Accepting keeps `Valid`: the only new row is the streak pack under the
      next id. */
  lemma AcceptBattleKeepsValid(g: Game, cfg: Config, a: AgentId, id: RowId, card: CardId, cPow: int, dPow: int)
    requires Valid(g)
    ensures Valid(AcceptBattle(g, cfg, a, id, card, cPow, dPow).game)
  {
    var r := AcceptBattle(g, cfg, a, id, card, cPow, dPow);
    if r.reply.Ok? {
      assert r.game.battles.Keys == g.battles.Keys;
    }
  }

  /** On a decisive result the winner gets one more win and the ELO bonus,
      the loser one more loss and the ELO penalty, nobody's draws move, and no
      third agent's stats change. In a battle against oneself the agent is both
      winner and loser and gets all four updates. */
  lemma DecisiveResult(g: Game, cfg: Config, a: AgentId, id: RowId, card: CardId, cPow: int, dPow: int)
    requires AcceptBattle(g, cfg, a, id, card, cPow, dPow).reply.Ok?
    requires cPow != dPow
    ensures var r := AcceptBattle(g, cfg, a, id, card, cPow, dPow);
      var c := g.battles[id].challenger;
      var w := if cPow > dPow then c else a;
      var l := if cPow > dPow then a else c;
      && r.reply.value.winner == Some(w)
      && (w in g.stats ==>
            && r.game.stats[w].wins == g.stats[w].wins + 1
            && r.game.stats[w].losses == g.stats[w].losses + (if l == w then 1 else 0)
            && r.game.stats[w].elo == g.stats[w].elo + cfg.eloWinBonus - (if l == w then cfg.eloLossPenalty else 0)
            && r.game.stats[w].draws == g.stats[w].draws)
      && (l in g.stats && l != w ==>
            && r.game.stats[l].losses == g.stats[l].losses + 1
            && r.game.stats[l].wins == g.stats[l].wins
            && r.game.stats[l].elo == g.stats[l].elo - cfg.eloLossPenalty
            && r.game.stats[l].draws == g.stats[l].draws
            && r.game.stats[l].battlesSinceLastPack == g.stats[l].battlesSinceLastPack)
      && forall b :: b in g.stats && b != w && b != l ==> r.game.stats[b] == g.stats[b]
  {
    var c := g.battles[id].challenger;
    var w := if cPow > dPow then c else a;
    var l := if cPow > dPow then a else c;
    var bt := g.battles[id];
    var done := bt.(defenderCard := Some(card), challengerPower := Some(cPow), defenderPower := Some(dPow),
                    winner := Some(w), status := Completed);
    SettleDecisive(g.(battles := g.battles[id := done]), cfg, c, a, w);
    DecisiveRows(g.stats, AcceptBattle(g, cfg, a, id, card, cPow, dPow).game.stats, cfg, w, l);
  }

  /** The rows a decisive result leaves, read column by column. */
  lemma DecisiveRows(before: map<AgentId, Stats>, after: map<AgentId, Stats>, cfg: Config, w: AgentId, l: AgentId)
    requires after.Keys == before.Keys
    requires forall b, h :: b in before && (b != w || h != BattlesSinceLastPack) ==>
      StatOf(after[b], h) == StatOf(DecisiveStats(before, cfg, w, l)[b], h)
    ensures w in before ==>
      && after[w].wins == before[w].wins + 1
      && after[w].losses == before[w].losses + (if l == w then 1 else 0)
      && after[w].elo == before[w].elo + cfg.eloWinBonus - (if l == w then cfg.eloLossPenalty else 0)
      && after[w].draws == before[w].draws
    ensures l in before && l != w ==>
      && after[l].losses == before[l].losses + 1
      && after[l].wins == before[l].wins
      && after[l].elo == before[l].elo - cfg.eloLossPenalty
      && after[l].draws == before[l].draws
      && after[l].battlesSinceLastPack == before[l].battlesSinceLastPack
    ensures forall b :: b in before && b != w && b != l ==> after[b] == before[b]
  {
    var s := DecisiveStats(before, cfg, w, l);
    forall b | b in before && b != w && b != l ensures after[b] == before[b] {
      StatsExtensional(after[b], before[b]);
    }
    if w in before {
      assert StatOf(after[w], Wins) == StatOf(s[w], Wins) && StatOf(after[w], Losses) == StatOf(s[w], Losses);
      assert StatOf(after[w], Elo) == StatOf(s[w], Elo) && StatOf(after[w], Draws) == StatOf(s[w], Draws);
    }
    if l in before && l != w {
      assert StatOf(after[l], Wins) == StatOf(s[l], Wins) && StatOf(after[l], Losses) == StatOf(s[l], Losses);
      assert StatOf(after[l], Elo) == StatOf(s[l], Elo) && StatOf(after[l], Draws) == StatOf(s[l], Draws);
      assert StatOf(after[l], BattlesSinceLastPack) == StatOf(s[l], BattlesSinceLastPack);
    }
  }

  /** Settling a decisive result: every column is the one the five UPDATEs
      left, except the winner's streak counter, which the streak check may
      reset. */
  lemma SettleDecisive(g: Game, cfg: Config, challenger: AgentId, defender: AgentId, w: AgentId)
    ensures var r := Settle(g, cfg, challenger, defender, Some(w)).game;
      var s := DecisiveStats(g.stats, cfg, w, if w == defender then challenger else defender);
      && r.stats.Keys == g.stats.Keys
      && forall b, h :: b in g.stats && (b != w || h != BattlesSinceLastPack) ==> StatOf(r.stats[b], h) == StatOf(s[b], h)
  {
  }

  /** Two stats rows that agree on every column are equal. */
  lemma StatsExtensional(s: Stats, t: Stats)
    requires forall h :: StatOf(s, h) == StatOf(t, h)
    ensures s == t
  {
    assert StatOf(s, Wins) == StatOf(t, Wins) && StatOf(s, Losses) == StatOf(t, Losses);
    assert StatOf(s, Draws) == StatOf(t, Draws) && StatOf(s, Elo) == StatOf(t, Elo);
    assert StatOf(s, BattlesSinceLastPack) == StatOf(t, BattlesSinceLastPack);
    assert StatOf(s, TradesCompleted) == StatOf(t, TradesCompleted);
    assert StatOf(s, CardsCollected) == StatOf(t, CardsCollected) && StatOf(s, Karma) == StatOf(t, Karma);
  }

  /** On a draw both agents get one more draw, every other column of theirs
      stays, no third agent's stats change, and no pack is awarded. In a
      battle against oneself both draw UPDATEs hit the one row. */
  lemma DrawResult(g: Game, cfg: Config, a: AgentId, id: RowId, card: CardId, pow: int)
    requires AcceptBattle(g, cfg, a, id, card, pow, pow).reply.Ok?
    ensures var r := AcceptBattle(g, cfg, a, id, card, pow, pow);
      var c := g.battles[id].challenger;
      && r.reply.value.winner.None? && !r.reply.value.packAwarded
      && r.game.packs == g.packs
      && forall b :: b in g.stats ==>
           r.game.stats[b] == if b == a || b == c then g.stats[b].(draws := g.stats[b].draws + (if a == c then 2 else 1))
                              else g.stats[b]
  {
    var r := AcceptBattle(g, cfg, a, id, card, pow, pow);
    var c := g.battles[id].challenger;
    forall b | b in g.stats
      ensures r.game.stats[b] == if b == a || b == c then g.stats[b].(draws := g.stats[b].draws + (if a == c then 2 else 1))
                                 else g.stats[b]
    {
      var want := if b == a || b == c then g.stats[b].(draws := g.stats[b].draws + (if a == c then 2 else 1)) else g.stats[b];
      StatsExtensional(r.game.stats[b], want);
    }
  }

  /** Every agent's streak counter is in 0..2. */
  ghost predicate StreaksBounded(stats: map<AgentId, Stats>)
  {
    forall b :: b in stats ==> 0 <= stats[b].battlesSinceLastPack < StreakForPack
  }

  /** The streak counter only moves up by one win at a time and is reset on
      reaching three, so it stays in 0..2; a pack is awarded exactly when the
      winner's counter was at 2. */
  lemma AcceptKeepsStreaksBounded(g: Game, cfg: Config, a: AgentId, id: RowId, card: CardId, cPow: int, dPow: int)
    requires StreaksBounded(g.stats)
    ensures var r := AcceptBattle(g, cfg, a, id, card, cPow, dPow);
      && StreaksBounded(r.game.stats)
      && (r.reply.Ok? ==>
            (r.reply.value.packAwarded <==>
               r.reply.value.winner.Some? && r.reply.value.winner.value in g.stats
               && g.stats[r.reply.value.winner.value].battlesSinceLastPack == StreakForPack - 1))
  {
    var r := AcceptBattle(g, cfg, a, id, card, cPow, dPow);
    if r.reply.Ok? {
      forall x | x in r.game.stats ensures 0 <= r.game.stats[x].battlesSinceLastPack < StreakForPack {
        CounterAfterAccept(g, cfg, a, id, card, cPow, dPow, x);
      }
    }
  }

  /** One agent's streak counter after an accept: the winner's moves up by
      one and drops to 0 on reaching three, anyone else's stays; the pack is
      awarded exactly when the winner's counter reached three. */
  lemma CounterAfterAccept(g: Game, cfg: Config, a: AgentId, id: RowId, card: CardId, cPow: int, dPow: int, x: AgentId)
    requires AcceptBattle(g, cfg, a, id, card, cPow, dPow).reply.Ok?
    ensures var r := AcceptBattle(g, cfg, a, id, card, cPow, dPow);
      var w := r.reply.value.winner;
      && (r.reply.value.packAwarded <==>
            w.Some? && w.value in g.stats && g.stats[w.value].battlesSinceLastPack + 1 >= StreakForPack)
      && (x in g.stats ==>
            r.game.stats[x].battlesSinceLastPack ==
              if w == Some(x) then
                (if g.stats[x].battlesSinceLastPack + 1 >= StreakForPack then 0 else g.stats[x].battlesSinceLastPack + 1)
              else g.stats[x].battlesSinceLastPack)
  {
    var b := g.battles[id];
    var w := Winner(b.challenger, a, cPow, dPow);
    var done := b.(defenderCard := Some(card), challengerPower := Some(cPow), defenderPower := Some(dPow),
                   winner := w, status := Completed);
    var g1 := g.(battles := g.battles[id := done]);
    SettleCounter(g1, cfg, b.challenger, a, w, x);
  }

  /** The streak counter part of settling a result, for one agent `x`. */
  lemma SettleCounter(g: Game, cfg: Config, challenger: AgentId, defender: AgentId, winner: Option<AgentId>, x: AgentId)
    ensures var r := Settle(g, cfg, challenger, defender, winner);
      && (r.reply <==>
            winner.Some? && winner.value in g.stats && g.stats[winner.value].battlesSinceLastPack + 1 >= StreakForPack)
      && (x in g.stats ==>
            r.game.stats[x].battlesSinceLastPack ==
              if winner == Some(x) then
                (if g.stats[x].battlesSinceLastPack + 1 >= StreakForPack then 0 else g.stats[x].battlesSinceLastPack + 1)
              else g.stats[x].battlesSinceLastPack)
  {
    match winner
    case Some(w) => SettleCounterDecisive(g, cfg, challenger, defender, w, x);
    case None => SettleCounterDraw(g, cfg, challenger, defender, x);
  }

  /** SettleCounter when there is a winner. */
  lemma SettleCounterDecisive(g: Game, cfg: Config, challenger: AgentId, defender: AgentId, w: AgentId, x: AgentId)
    ensures var r := Settle(g, cfg, challenger, defender, Some(w));
      && (r.reply <==> w in g.stats && g.stats[w].battlesSinceLastPack + 1 >= StreakForPack)
      && (x in g.stats ==>
            r.game.stats[x].battlesSinceLastPack ==
              if w == x then
                (if g.stats[x].battlesSinceLastPack + 1 >= StreakForPack then 0 else g.stats[x].battlesSinceLastPack + 1)
              else g.stats[x].battlesSinceLastPack)
  {
    var l := if w == defender then challenger else defender;
    var s := DecisiveStats(g.stats, cfg, w, l);
    if x in g.stats {
      assert StatOf(s[x], BattlesSinceLastPack) == StatOf(g.stats[x], BattlesSinceLastPack) + (if x == w then 1 else 0);
    }
    if w in g.stats {
      assert StatOf(s[w], BattlesSinceLastPack) == StatOf(g.stats[w], BattlesSinceLastPack) + 1;
    }
  }

  /** SettleCounter for a draw: no counter moves and no pack. */
  lemma SettleCounterDraw(g: Game, cfg: Config, challenger: AgentId, defender: AgentId, x: AgentId)
    ensures var r := Settle(g, cfg, challenger, defender, None);
      !r.reply && (x in g.stats ==> r.game.stats[x].battlesSinceLastPack == g.stats[x].battlesSinceLastPack)
  {
    if x in g.stats {
      var s := BumpStat(BumpStat(g.stats, defender, Draws, 1), challenger, Draws, 1);
      assert StatOf(s[x], BattlesSinceLastPack) == StatOf(g.stats[x], BattlesSinceLastPack);
    }
  }

  /** handleBattleDecline: every battle with that id addressed to `a` is
      declined whatever its status, even a completed one; the handler reports
      success whether or not a row matched. */
  function DeclineBattle(g: Game, a: AgentId, id: RowId): (r: Outcome<bool>)
    ensures r.reply
    ensures r.game.battles.Keys == g.battles.Keys
    ensures forall k :: k in g.battles ==>
      r.game.battles[k] == if k == id && g.battles[k].defender == a then g.battles[k].(status := BattleStatus.Declined) else g.battles[k]
    ensures r.game.(battles := g.battles) == g
  {
    if id in g.battles && g.battles[id].defender == a then
      Outcome(g.(battles := g.battles[id := g.battles[id].(status := BattleStatus.Declined)]), true)
    else Outcome(g, true)
  }

  /** A declined battle can no longer be accepted. */
  lemma AcceptAfterDeclineFails(g: Game, cfg: Config, a: AgentId, id: RowId, card: CardId, cPow: int, dPow: int)
    ensures var declined := DeclineBattle(g, a, id).game;
      AcceptBattle(declined, cfg, a, id, card, cPow, dPow) == Outcome(declined, Err(BattleNotPending))
  {
  }
}

=== FILE: daily_login.dfy ===
/** The daily login reward (src/utils/daily-login.ts): one standard pack per
    calendar day. "Today" is a parameter, the date part of the current ISO
    timestamp in the source. */
module DailyLogin {
  import opened GameState

  /** The `{ packGiven, isNewDay }` record. */
  datatype LoginResult = LoginResult(packGiven: bool, isNewDay: bool)

  /** `!lastLogin || lastLogin !== today`: a missing or empty date counts as
      never having logged in. */
  predicate IsNewDay(lastLogin: Option<Date>, today: Date)
  {
    lastLogin.None? || lastLogin.value == "" || lastLogin.value != today
  }

  /** checkAndGiveDailyLoginPack: nothing for an unknown agent; on a new day one
      standard pack for the agent and today's date recorded; otherwise nothing.
      The pack is given exactly when the day is new. */
  function CheckAndGiveDailyLoginPack(g: Game, a: AgentId, today: Date): (r: Outcome<LoginResult>)
    ensures r.reply.packGiven == r.reply.isNewDay
    ensures a !in g.agents ==> r == Outcome(g, LoginResult(false, false))
    ensures a in g.agents ==> (r.reply.isNewDay <==> IsNewDay(g.agents[a].lastLoginDate, today))
    ensures !r.reply.packGiven ==> r.game == g
    ensures r.reply.packGiven ==>
      && r.game.packs == g.packs[g.nextId := Pack(a, Standard, false)]
      && r.game.agents == g.agents[a := g.agents[a].(lastLoginDate := Some(today))]
      && r.game.nextId == g.nextId + 1
    ensures r.game.(packs := g.packs, agents := g.agents, nextId := g.nextId) == g
    ensures Valid(g) ==> Valid(r.game)
  {
    if a !in g.agents then Outcome(g, LoginResult(false, false))
    else if IsNewDay(g.agents[a].lastLoginDate, today) then
      var g1 := CreatePack(g, a, Standard);
      Outcome(g1.(agents := g1.agents[a := g1.agents[a].(lastLoginDate := Some(today))]), LoginResult(true, true))
    else Outcome(g, LoginResult(false, false))
  }

  /** On a new day the agent holds exactly one more standard pack, and nobody
      else's packs change. */
  lemma NewDayGivesOnePack(g: Game, a: AgentId, today: Date)
    requires Valid(g)
    requires CheckAndGiveDailyLoginPack(g, a, today).reply.packGiven
    ensures var r := CheckAndGiveDailyLoginPack(g, a, today).game;
      && PacksOf(r.packs, a, Standard) == PacksOf(g.packs, a, Standard) + {g.nextId}
      && g.nextId !in PacksOf(g.packs, a, Standard)
      && forall b, t :: b != a || t != Standard ==> PacksOf(r.packs, b, t) == PacksOf(g.packs, b, t)
  {
    CreatePackAddsOne(g, a, Standard);
  }

  /** Within a day the reward is given once: a second call with the same
      (non-empty) date gives nothing and changes nothing. */
  lemma SecondCallSameDay(g: Game, a: AgentId, today: Date)
    requires today != ""
    ensures var once := CheckAndGiveDailyLoginPack(g, a, today).game;
      CheckAndGiveDailyLoginPack(once, a, today) == Outcome(once, LoginResult(false, false))
  {
  }

  /** A later call on a different day gives the pack again. */
  lemma NextDayGivesAgain(g: Game, a: AgentId, today: Date, tomorrow: Date)
    requires a in g.agents && tomorrow != today
    ensures var once := CheckAndGiveDailyLoginPack(g, a, today).game;
      CheckAndGiveDailyLoginPack(once, a, tomorrow).reply == LoginResult(true, true)
  {
  }

  /** The `daily_login` object added to a response. */
  datatype DailyInfo = DailyInfo(packGiven: bool, message: string)

  const Bonus := DailyInfo(true, "\U{1F381} Daily login bonus! You received a standard pack!")

  /** How `JSON.parse` reads the response text. Parsing is not modelled: the
      reading comes in as a parameter. `result` is the kind of the top-level
      object's `result` member. */
  datatype Parsed = NotJson | JsonNull | JsonArray | JsonScalar | JsonObject(result: ResultMember)

  /** Absent or falsy, an array, a non-null object that is not an array, or
      a truthy primitive. */
  datatype ResultMember = NoResult | ArrayResult | ObjectResult | PrimitiveResult

  /** The text of the new response addDailyLoginInfo builds. */
  datatype Body =
    | Fresh(info: DailyInfo)                      // { success: true, daily_login }
    | InResult(info: DailyInfo)                   // the object, with result.daily_login set
    | AtTop(info: DailyInfo)                      // the object, with daily_login set
    | Wrapped(info: DailyInfo)                    // { success: true, data, daily_login }
    | Original(text: string, info: DailyInfo)     // { success: true, original_response, daily_login }
    | Restringified                               // the data re-serialised without daily_login: the property
                                                  // was set on an array, which serialisation drops

  /** The response returned: the one passed in, or a new one. */
  datatype Reply<R> = AsIs(response: R) | Rewritten(body: Body)

  /** The daily login object a reply carries, if any. */
  function Reported<R>(r: Reply<R>): Option<DailyInfo>
  {
    match r
    case AsIs(_) => None
    case Rewritten(Restringified) => None
    case Rewritten(b) => Some(b.info)
  }

  /** addDailyLoginInfo. `text` is `response.content?.[0]?.text` and `parse`
      the reading of `JSON.parse` on it. Without a pack the response is
      returned as it is; with one, a missing or empty text gives a fresh body,
      an object gets `daily_login` (inside a truthy `result` member when there
      is one), a scalar is wrapped, and text that does not parse is kept as
      `original_response`. A property set on an array, at the top or as
      `result`, is lost when the data is serialised again. Reading `result` of `null` and writing a property
      of a primitive `result` throw, and the catch keeps the original text. */
  function AddDailyLoginInfo<R>(response: R, text: Option<string>, parse: string -> Parsed, result: LoginResult): (r: Reply<R>)
    ensures r.AsIs? <==> !result.packGiven
    ensures r.AsIs? ==> r.response == response
    ensures result.packGiven && (text.None? || text.value == "") ==> r == Rewritten(Fresh(Bonus))
    ensures r.Rewritten? && r.body.Original? ==> text.Some? && r.body.text == text.value
    ensures result.packGiven ==>
      (Reported(r) == Some(Bonus) <==>
         text.None? || text.value == "" || (parse(text.value) != JsonArray && parse(text.value) != JsonObject(ArrayResult)))
    ensures Reported(r).Some? ==> Reported(r) == Some(Bonus)
  {
    if !result.packGiven then AsIs(response)
    else if text.None? || text.value == "" then Rewritten(Fresh(Bonus))
    else
      var t := text.value;
      match parse(t)
      case NotJson => Rewritten(Original(t, Bonus))
      case JsonNull => Rewritten(Original(t, Bonus))
      case JsonArray => Rewritten(Restringified)
      case JsonScalar => Rewritten(Wrapped(Bonus))
      case JsonObject(NoResult) => Rewritten(AtTop(Bonus))
      case JsonObject(ArrayResult) => Rewritten(Restringified)
      case JsonObject(ObjectResult) => Rewritten(InResult(Bonus))
      case JsonObject(PrimitiveResult) => Rewritten(Original(t, Bonus))
  }

  /** The response is left untouched exactly when the login gives no pack:
      the agent is unknown or has already logged in today. */
  lemma NoPackNoChange<R>(g: Game, a: AgentId, today: Date, response: R, text: Option<string>, parse: string -> Parsed)
    ensures AddDailyLoginInfo(response, text, parse, CheckAndGiveDailyLoginPack(g, a, today).reply) == AsIs(response)
      <==> a !in g.agents || !IsNewDay(g.agents[a].lastLoginDate, today)
  {
  }
}

=== FILE: decks.dfy ===
/** Deck building (src/handlers/ux/decks.ts): at most ten decks per agent, card
    lists of owned cards only, and at most one active deck. */
module Decks {
  import opened GameState

  /** "Maximum 10 decks allowed". */
  const MaxDecks: nat := 10

  /** The decks of `a`. */
  function DecksOf(decks: map<RowId, Deck>, a: AgentId): set<RowId>
  {
    set k | k in decks && decks[k].owner == a
  }

  /** The decks of `a` that are active. */
  function ActiveDecks(decks: map<RowId, Deck>, a: AgentId): set<RowId>
  {
    set k | k in decks && decks[k].owner == a && decks[k].active
  }

  /** No agent holds more than ten decks. */
  ghost predicate WithinLimit(decks: map<RowId, Deck>)
  {
    forall a :: |DecksOf(decks, a)| <= MaxDecks
  }

  /** No agent has two active decks. */
  ghost predicate OneActive(decks: map<RowId, Deck>)
  {
    forall k, j :: k in decks && j in decks && decks[k].active && decks[j].active && decks[k].owner == decks[j].owner
      ==> k == j
  }

  /** createDeck: refused once the agent holds ten decks; otherwise one new,
      empty and inactive deck of the agent under a fresh id. A missing
      description is stored as the empty text. */
  function CreateDeck(g: Game, a: AgentId, name: string, description: Option<string>): (r: Outcome<Result<RowId>>)
    ensures r.reply.Err? <==> |DecksOf(g.decks, a)| >= MaxDecks
    ensures r.reply.Err? ==> r.reply.error == TooManyDecks && r.game == g
    ensures r.reply.Ok? ==>
      && r.game.decks == g.decks[r.reply.value := Deck(a, name, if description.Some? then description.value else "", [], false)]
      && (Valid(g) ==> r.reply.value !in g.decks)
    ensures Valid(g) ==> Valid(r.game)
    ensures r.game.(decks := g.decks, nextId := g.nextId) == g
  {
    if |DecksOf(g.decks, a)| >= MaxDecks then Outcome(g, Err(TooManyDecks))
    else
      var id := g.nextId;
      var d := Deck(a, name, if description.Some? then description.value else "", [], false);
      Outcome(g.(decks := g.decks[id := d], nextId := id + 1), Ok(id))
  }

  /** Creating a deck keeps every agent within ten decks and at most one active
      deck, and gives the creator exactly one more deck. */
  lemma CreateDeckKeepsInvariants(g: Game, a: AgentId, name: string, description: Option<string>)
    requires Valid(g) && WithinLimit(g.decks) && OneActive(g.decks)
    ensures var r := CreateDeck(g, a, name, description);
      && WithinLimit(r.game.decks) && OneActive(r.game.decks)
      && (r.reply.Ok? ==> |DecksOf(r.game.decks, a)| == |DecksOf(g.decks, a)| + 1)
  {
    var r := CreateDeck(g, a, name, description);
    if r.reply.Ok? {
      var id := r.reply.value;
      var d := r.game.decks[id];
      assert id !in g.decks && r.game.decks == g.decks[id := d];
      forall b ensures |DecksOf(r.game.decks, b)| <= MaxDecks && (b == a ==> |DecksOf(r.game.decks, b)| == |DecksOf(g.decks, b)| + 1)
      {
        DecksOfInsert(g.decks, id, d, b);
      }
      assert OneActive(r.game.decks) by {
        forall k, j | k in r.game.decks && j in r.game.decks && r.game.decks[k].active && r.game.decks[j].active
                      && r.game.decks[k].owner == r.game.decks[j].owner
          ensures k == j
        {
          assert k != id && j != id;
        }
      }
    }
  }

  /** A row stored under an unused id joins its owner's decks and no one
      else's. */
  lemma DecksOfInsert(decks: map<RowId, Deck>, id: RowId, d: Deck, b: AgentId)
    requires id !in decks
    ensures DecksOf(decks[id := d], b) == if d.owner == b then DecksOf(decks, b) + {id} else DecksOf(decks, b)
    ensures |DecksOf(decks[id := d], b)| == |DecksOf(decks, b)| + (if d.owner == b then 1 else 0)
  {
    assert DecksOf(decks[id := d], b) == if d.owner == b then DecksOf(decks, b) + {id} else DecksOf(decks, b);
  }

  /** updateDeck: "Deck not found" unless the agent owns the deck, then the
      first listed card the agent does not own; otherwise the deck's list
      becomes exactly the given one and its length is reported. Failures
      change nothing. */
  function UpdateDeck(g: Game, a: AgentId, deck: RowId, ids: seq<CardId>): (r: Outcome<Result<nat>>)
    ensures r.reply == Err(DeckNotFound) <==> deck !in g.decks || g.decks[deck].owner != a
    ensures r.reply.Ok? <==>
      deck in g.decks && g.decks[deck].owner == a && forall i :: 0 <= i < |ids| ==> Owns(g.cards, a, ids[i])
    ensures r.reply.Err? && r.reply.error.CardNotInCollection? ==>
      exists i :: 0 <= i < |ids| && ids[i] == r.reply.error.card && !Owns(g.cards, a, ids[i])
                  && forall j :: 0 <= j < i ==> Owns(g.cards, a, ids[j])
    ensures r.reply.Err? ==> r.game == g
    ensures r.reply.Ok? ==>
      && r.reply.value == |ids|
      && r.game.decks == g.decks[deck := g.decks[deck].(cards := ids)]
    ensures r.game.(decks := g.decks) == g
  {
    if deck !in g.decks || g.decks[deck].owner != a then Outcome(g, Err(DeckNotFound))
    else match FirstUnowned(g.cards, a, ids)
      case Some(c) => Outcome(g, Err(CardNotInCollection(c)))
      case None => Outcome(g.(decks := g.decks[deck := g.decks[deck].(cards := ids)]), Ok(|ids|))
  }

  /** Updating a list changes no deck's owner or activity. */
  lemma UpdateDeckKeepsInvariants(g: Game, a: AgentId, deck: RowId, ids: seq<CardId>)
    requires WithinLimit(g.decks) && OneActive(g.decks)
    ensures var r := UpdateDeck(g, a, deck, ids);
      WithinLimit(r.game.decks) && OneActive(r.game.decks)
  {
    var r := UpdateDeck(g, a, deck, ids);
    forall b ensures DecksOf(r.game.decks, b) == DecksOf(g.decks, b) {
    }
  }

  /** deleteDeck: removes the deck iff the agent owns it; success iff removed. */
  function DeleteDeck(g: Game, a: AgentId, deck: RowId): (r: Outcome<bool>)
    ensures r.reply <==> deck in g.decks && g.decks[deck].owner == a
    ensures r.reply ==> r.game.decks == g.decks - {deck}
    ensures !r.reply ==> r.game == g
    ensures Valid(g) ==> Valid(r.game)
    ensures WithinLimit(g.decks) ==> WithinLimit(r.game.decks)
    ensures OneActive(g.decks) ==> OneActive(r.game.decks)
    ensures r.game.(decks := g.decks) == g
  {
    if deck in g.decks && g.decks[deck].owner == a then
      var rest := g.decks - {deck};
      assert forall b :: DecksOf(rest, b) <= DecksOf(g.decks, b);
      assert forall b :: |DecksOf(rest, b)| <= |DecksOf(g.decks, b)| by {
        forall b ensures |DecksOf(rest, b)| <= |DecksOf(g.decks, b)| {
          SubsetCard(DecksOf(rest, b), DecksOf(g.decks, b));
        }
      }
      Outcome(g.(decks := rest), true)
    else Outcome(g, false)
  }

  lemma SubsetCard(s: set<RowId>, t: set<RowId>)
    requires s <= t
    ensures |s| <= |t|
  {
    assert t == s + (t - s);
  }

  /** `UPDATE decks SET is_active = FALSE WHERE agent_id = ?` followed by
      `UPDATE decks SET is_active = TRUE WHERE id = ? AND agent_id = ?`. */
  function Activate(decks: map<RowId, Deck>, a: AgentId, deck: RowId): (r: map<RowId, Deck>)
    ensures r.Keys == decks.Keys
    ensures forall k :: k in decks ==>
      r[k] == (if decks[k].owner == a then decks[k].(active := k == deck) else decks[k])
  {
    map k | k in decks :: if decks[k].owner == a then decks[k].(active := k == deck) else decks[k]
  }

  /** setActiveDeck: afterwards exactly the target is active among the agent's
      decks if the agent owns it, and none of them otherwise (reporting
      failure); other agents' decks are untouched. */
  function SetActiveDeck(g: Game, a: AgentId, deck: RowId): (r: Outcome<bool>)
    ensures r.reply <==> deck in g.decks && g.decks[deck].owner == a
    ensures ActiveDecks(r.game.decks, a) == if r.reply then {deck} else {}
    ensures r.game.decks.Keys == g.decks.Keys
    ensures forall k :: k in g.decks && g.decks[k].owner != a ==> r.game.decks[k] == g.decks[k]
    ensures forall k :: k in g.decks ==> r.game.decks[k].(active := g.decks[k].active) == g.decks[k]
    ensures r.game.(decks := g.decks) == g
  {
    var decks := Activate(g.decks, a, deck);
    var ok := deck in g.decks && g.decks[deck].owner == a;
    assert ActiveDecks(decks, a) == if ok then {deck} else {} by {
      forall k | k in ActiveDecks(decks, a) ensures ok && k == deck {
        assert decks[k] == g.decks[k].(active := k == deck);
      }
      if ok {
        assert decks[deck].active;
      }
    }
    Outcome(g.(decks := decks), ok)
  }

  /** setActiveDeck keeps both deck invariants: it moves no deck and leaves at
      most one active deck per agent. */
  lemma SetActiveDeckKeepsInvariants(g: Game, a: AgentId, deck: RowId)
    requires WithinLimit(g.decks) && OneActive(g.decks)
    ensures var r := SetActiveDeck(g, a, deck);
      WithinLimit(r.game.decks) && OneActive(r.game.decks)
  {
    var decks := SetActiveDeck(g, a, deck).game.decks;
    forall b ensures DecksOf(decks, b) == DecksOf(g.decks, b) {
    }
    forall k, j | k in decks && j in decks && decks[k].active && decks[j].active && decks[k].owner == decks[j].owner
      ensures k == j
    {
      if decks[k].owner != a {
        assert decks[k] == g.decks[k] && decks[j] == g.decks[j];
      }
    }
  }

  /** Every non-empty set of ids has a least element. */
  lemma {:induction false} HasLeast(s: set<RowId>)
    requires s != {}
    ensures exists x :: x in s && IsLeast(x, s)
  {
    var x :| x in s;
    if s == {x} {
      assert IsLeast(x, s);
    } else {
      var rest := s - {x};
      HasLeast(rest);
      var m :| m in rest && IsLeast(m, rest);
      var least := if x < m then x else m;
      forall y | y in s ensures least <= y {
        if y != x {
          assert y in rest;
        }
      }
      assert least in s && IsLeast(least, s);
    }
  }

  predicate IsLeast(x: RowId, s: set<RowId>)
  {
    forall y :: y in s ==> x <= y
  }

  /** getActiveDeck: "No active deck set" iff the agent has no active deck;
      otherwise an active deck of the agent, the oldest one should there be
      several. */
  function GetActiveDeck(g: Game, a: AgentId): (r: Result<RowId>)
    ensures r.Err? <==> ActiveDecks(g.decks, a) == {}
    ensures r.Err? ==> r.error == NoActiveDeck
    ensures r.Ok? ==> r.value in g.decks && g.decks[r.value].owner == a && g.decks[r.value].active
    ensures r.Ok? && OneActive(g.decks) ==> ActiveDecks(g.decks, a) == {r.value}
  {
    var s := ActiveDecks(g.decks, a);
    if s == {} then Err(NoActiveDeck)
    else
      HasLeast(s);
      var k :| k in s && IsLeast(k, s);
      Ok(k)
  }

  /** After a successful setActiveDeck the agent's active deck is the target;
      after a failed one the agent has none. */
  lemma SetThenGetActive(g: Game, a: AgentId, deck: RowId)
    ensures var set_ := SetActiveDeck(g, a, deck);
      GetActiveDeck(set_.game, a) == if set_.reply then Ok(deck) else Err(NoActiveDeck)
  {
  }
}

=== FILE: friends.dfy ===
/** The friend-request state machine (src/handlers/ux/friends.ts). A row of the
    friends table goes pending -> accepted or pending -> declined; removing a
    friend deletes the rows of the pair. */
module Friends {
  import opened GameState
  import opened Ordering
  import Notifications

  /** `f` links `a` and `b`, in either direction. */
  predicate Links(f: Friendship, a: AgentId, b: AgentId)
  {
    (f.sender == a && f.target == b) || (f.sender == b && f.target == a)
  }

  /** A row that blocks a new request: pending or accepted. */
  predicate Live(f: Friendship)
  {
    f.status == RequestStatus.Pending || f.status == Accepted
  }

  predicate HasLinkWithStatus(fs: seq<Friendship>, a: AgentId, b: AgentId, st: RequestStatus)
  {
    exists f :: f in fs && Links(f, a, b) && f.status == st
  }

  function FriendshipId(x: Friendship): int { x.id }

  /** Row-id order, the order the table was filled in. */
  ghost predicate IdsAscending(fs: seq<Friendship>)
  {
    AscendingBy(fs, FriendshipId)
  }

  /** The intended invariant: at most one live row between any two agents. */
  ghost predicate OneLivePerPair(fs: seq<Friendship>)
  {
    forall f, h :: f in fs && h in fs && f.id != h.id && Live(f) && Live(h) ==> !Links(f, h.sender, h.target)
  }

  /** The row `.get()` returns for the pair: the first one in table order. */
  function FirstLink(fs: seq<Friendship>, a: AgentId, b: AgentId): (r: Option<Friendship>)
    ensures r.None? <==> forall f :: f in fs ==> !Links(f, a, b)
    ensures r.Some? ==> exists i :: 0 <= i < |fs| && fs[i] == r.value && Links(fs[i], a, b)
                                    && forall j :: 0 <= j < i ==> !Links(fs[j], a, b)
  {
    if |fs| == 0 then None
    else if Links(fs[0], a, b) then Some(fs[0])
    else
      var r := FirstLink(fs[1..], a, b);
      assert forall f :: f in fs <==> f == fs[0] || f in fs[1..];
      assert forall i :: 1 <= i < |fs| ==> fs[i] == fs[1..][i - 1];
      r
  }

  /** The insert half of sendFriendRequest: one pending row from `a` to
      `target` and one notification to `target`. */
  function AddRequest(g: Game, a: AgentId, target: AgentId): (r: Outcome<Result<RowId>>)
    ensures r.reply.Ok? && r.reply.value == g.nextId
    ensures r.game.friends == g.friends + [Friendship(g.nextId, a, target, RequestStatus.Pending)]
    ensures exists n :: r.game.notifications == g.notifications + [n] && n.recipient == target && !n.isRead
                        && n.data == FriendRequestData(a, g.nextId)
    ensures Valid(g) ==> Valid(r.game)
    ensures r.game.(friends := g.friends, notifications := g.notifications, nextId := g.nextId) == g
  {
    var id := g.nextId;
    var g1 := g.(friends := g.friends + [Friendship(id, a, target, RequestStatus.Pending)], nextId := id + 1);
    var sent := Notifications.Create(g1, target, "friend", "New Friend Request",
                                     "Agent " + a + " sent you a friend request", FriendRequestData(a, id));
    Outcome(sent.game, Ok(id))
  }

  /** sendFriendRequest AS WRITTEN: it looks at the first row between the pair
      only, so a declined row found first hides a live one behind it. */
  function SendFriendRequestAsWritten(g: Game, cfg: Config, a: AgentId, target: AgentId): (r: Outcome<Result<RowId>>)
    ensures var first := FirstLink(g.friends, a, target);
      && (r.reply == Err(AlreadyFriends) <==> first.Some? && first.value.status == Accepted)
      && (r.reply == Err(RequestAlreadyPending) <==> first.Some? && first.value.status == RequestStatus.Pending)
      && (r.reply.Ok? <==> first.None? || first.value.status == RequestStatus.Declined)
    ensures r.reply.Err? ==> r.game == EnsureAgent(g, cfg, target)
    ensures r.reply.Ok? ==>
      var e := EnsureAgent(g, cfg, target);
      && r.game.friends == g.friends + [Friendship(r.reply.value, a, target, RequestStatus.Pending)]
      && (exists n :: r.game.notifications == g.notifications + [n] && n.recipient == target && !n.isRead
                      && n.data == FriendRequestData(a, r.reply.value))
      && r.game.(friends := e.friends, notifications := e.notifications, nextId := e.nextId) == e
  {
    var g1 := EnsureAgent(g, cfg, target);
    match FirstLink(g1.friends, a, target)
    case Some(f) =>
      if f.status == Accepted then Outcome(g1, Err(AlreadyFriends))
      else if f.status == RequestStatus.Pending then Outcome(g1, Err(RequestAlreadyPending))
      else AddRequest(g1, a, target)
    case None => AddRequest(g1, a, target)
  }

  /** A reachable state: A's request to B was declined, then B's request to A
      was accepted. */
  function DeclinedThenAccepted(): Game
  {
    Game(map["A" := Agent("A", None), "B" := Agent("B", None)], map[], map[], map[], map[], map[],
         [Friendship(0, "A", "B", RequestStatus.Declined), Friendship(1, "B", "A", Accepted)],
         map[], [], map[], [], [], 2)
  }

  /** In that state A and B are friends, by a single live row. */
  lemma DeclinedThenAcceptedIsSound()
    ensures var g := DeclinedThenAccepted();
      Valid(g) && OneLivePerPair(g.friends) && HasLinkWithStatus(g.friends, "A", "B", Accepted)
  {
    var fs := DeclinedThenAccepted().friends;
    assert fs[1] in fs && Links(fs[1], "A", "B");
  }

  /** From that state the as-written check lets A send a second request to an
      agent A is already friends with, leaving two live rows for the pair. */
  lemma AsWrittenAllowsSecondLiveRow(cfg: Config)
    ensures var g := DeclinedThenAccepted();
      && Valid(g) && OneLivePerPair(g.friends) && HasLinkWithStatus(g.friends, "A", "B", Accepted)
      && SendFriendRequestAsWritten(g, cfg, "A", "B").reply.Ok?
      && !OneLivePerPair(SendFriendRequestAsWritten(g, cfg, "A", "B").game.friends)
  {
    DeclinedThenAcceptedIsSound();
    AsWrittenSendsAgain(cfg);
    var g := DeclinedThenAccepted();
    var r := SendFriendRequestAsWritten(g, cfg, "A", "B");
    var h := Friendship(2, "A", "B", RequestStatus.Pending);
    var f := g.friends[1];
    assert f in r.game.friends && h in r.game.friends;
    assert f.id != h.id && Live(f) && Live(h) && Links(f, h.sender, h.target);
  }

  /** The as-written check finds the declined row first and inserts a new
      pending row. */
  lemma AsWrittenSendsAgain(cfg: Config)
    ensures var g := DeclinedThenAccepted();
      var r := SendFriendRequestAsWritten(g, cfg, "A", "B");
      r.reply.Ok? && r.game.friends == g.friends + [Friendship(2, "A", "B", RequestStatus.Pending)]
  {
    var g := DeclinedThenAccepted();
    assert FirstLink(g.friends, "A", "B") == Some(g.friends[0]);
  }

  /** sendFriendRequest as intended: "Already friends" if any accepted row links
      the pair, "already pending" if any pending one does, otherwise exactly one
      new pending row and one notification to the target. The target agent is
      created first in every case, as getOrCreateAgent runs before the check. */
  function SendFriendRequest(g: Game, cfg: Config, a: AgentId, target: AgentId): (r: Outcome<Result<RowId>>)
    ensures r.reply == Err(AlreadyFriends) <==> HasLinkWithStatus(g.friends, a, target, Accepted)
    ensures r.reply == Err(RequestAlreadyPending) <==>
      !HasLinkWithStatus(g.friends, a, target, Accepted) && HasLinkWithStatus(g.friends, a, target, RequestStatus.Pending)
    ensures r.reply.Err? ==> r.game == EnsureAgent(g, cfg, target)
    ensures r.reply.Ok? ==>
      var e := EnsureAgent(g, cfg, target);
      && r.game.friends == g.friends + [Friendship(r.reply.value, a, target, RequestStatus.Pending)]
      && (exists n :: r.game.notifications == g.notifications + [n] && n.recipient == target && !n.isRead
                      && n.data == FriendRequestData(a, r.reply.value))
      && r.game.(friends := e.friends, notifications := e.notifications, nextId := e.nextId) == e
    ensures Valid(g) ==> Valid(r.game)
  {
    var g1 := EnsureAgent(g, cfg, target);
    if HasLinkWithStatus(g1.friends, a, target, Accepted) then Outcome(g1, Err(AlreadyFriends))
    else if HasLinkWithStatus(g1.friends, a, target, RequestStatus.Pending) then Outcome(g1, Err(RequestAlreadyPending))
    else AddRequest(g1, a, target)
  }

  /** The corrected check keeps at most one live row between any two agents. */
  lemma SendKeepsOneLivePerPair(g: Game, cfg: Config, a: AgentId, target: AgentId)
    requires Valid(g)
    requires OneLivePerPair(g.friends)
    ensures OneLivePerPair(SendFriendRequest(g, cfg, a, target).game.friends)
  {
    var r := SendFriendRequest(g, cfg, a, target);
    if r.reply.Ok? {
      assert !HasLinkWithStatus(g.friends, a, target, Accepted);
      assert !HasLinkWithStatus(g.friends, a, target, RequestStatus.Pending);
      AppendUnlinked(g.friends, Friendship(r.reply.value, a, target, RequestStatus.Pending));
    }
  }

  /** A row whose pair no live row links can be appended without breaking
      the one-live-row invariant. */
  lemma AppendUnlinked(fs: seq<Friendship>, n: Friendship)
    requires OneLivePerPair(fs)
    requires forall h :: h in fs && Live(h) ==> !Links(h, n.sender, n.target)
    ensures OneLivePerPair(fs + [n])
  {
    var rs := fs + [n];
    forall f, h | f in rs && h in rs && f.id != h.id && Live(f) && Live(h)
      ensures !Links(f, h.sender, h.target)
    {
      if f == n {
        assert h in fs;
      } else if h == n {
        assert f in fs;
      } else {
        assert f in fs && h in fs;
      }
    }
  }

  /** The rows `WHERE id = ? AND friend_id = ? AND status = 'pending'`: a
      pending request with that id addressed to `a`. */
  predicate PendingFor(f: Friendship, id: RowId, a: AgentId)
  {
    f.id == id && f.target == a && f.status == RequestStatus.Pending
  }

  function PendingCount(fs: seq<Friendship>, id: RowId, a: AgentId): (r: nat)
    ensures r > 0 <==> exists f :: f in fs && PendingFor(f, id, a)
  {
    if |fs| == 0 then 0
    else
      assert forall f :: f in fs <==> f == fs[0] || f in fs[1..];
      (if PendingFor(fs[0], id, a) then 1 else 0) + PendingCount(fs[1..], id, a)
  }

  /** `UPDATE friends SET status = st WHERE id = ? AND friend_id = ? AND status = 'pending'`. */
  function Resolve(fs: seq<Friendship>, id: RowId, a: AgentId, st: RequestStatus): (r: seq<Friendship>)
    ensures |r| == |fs|
    ensures forall i :: 0 <= i < |fs| ==>
      r[i] == (if PendingFor(fs[i], id, a) then fs[i].(status := st) else fs[i])
  {
    if |fs| == 0 then []
    else [if PendingFor(fs[0], id, a) then fs[0].(status := st) else fs[0]] + Resolve(fs[1..], id, a, st)
  }

  /** `SELECT agent_id FROM friends WHERE id = ?`. */
  function FindRow(fs: seq<Friendship>, id: RowId): (r: Option<Friendship>)
    ensures r.Some? ==> r.value in fs && r.value.id == id
    ensures r.None? ==> forall f :: f in fs ==> f.id != id
  {
    if |fs| == 0 then None
    else if fs[0].id == id then Some(fs[0])
    else
      assert forall f :: f in fs <==> f == fs[0] || f in fs[1..];
      FindRow(fs[1..], id)
  }

  lemma ResolveKeepsValid(g: Game, id: RowId, a: AgentId, st: RequestStatus)
    requires Valid(g)
    ensures Valid(g.(friends := Resolve(g.friends, id, a, st)))
  {
    var fs := Resolve(g.friends, id, a, st);
    assert forall i :: 0 <= i < |fs| ==> fs[i].id == g.friends[i].id;
  }

  /** Resolving a request keeps every row's id and ends, and never makes a
      dead row live, so the live rows only narrow. */
  lemma ResolveKeepsOneLivePerPair(fs: seq<Friendship>, id: RowId, a: AgentId, st: RequestStatus)
    requires st != RequestStatus.Pending
    requires OneLivePerPair(fs)
    ensures OneLivePerPair(Resolve(fs, id, a, st))
  {
    var rs := Resolve(fs, id, a, st);
    forall f, h | f in rs && h in rs && f.id != h.id && Live(f) && Live(h)
      ensures !Links(f, h.sender, h.target)
    {
      var f0 := LiveOrigin(fs, id, a, st, f);
      var h0 := LiveOrigin(fs, id, a, st, h);
      assert !Links(f0, h0.sender, h0.target);
    }
  }

  /** A live row after a resolve was already live, with the same id and ends. */
  lemma LiveOrigin(fs: seq<Friendship>, id: RowId, a: AgentId, st: RequestStatus, f: Friendship) returns (f0: Friendship)
    requires st != RequestStatus.Pending
    requires f in Resolve(fs, id, a, st) && Live(f)
    ensures f0 in fs && Live(f0) && f0.id == f.id && f0.sender == f.sender && f0.target == f.target
  {
    var rs := Resolve(fs, id, a, st);
    var i :| 0 <= i < |rs| && rs[i] == f;
    f0 := fs[i];
  }

  /** Under ascending ids, a row is the only one with its id. */
  lemma OnlyRowWithId(fs: seq<Friendship>, f: Friendship, h: Friendship)
    requires IdsAscending(fs)
    requires f in fs && h in fs && f.id == h.id
    ensures f == h
  {
    var i :| 0 <= i < |fs| && fs[i] == f;
    var j :| 0 <= j < |fs| && fs[j] == h;
  }

  /** The agent `SELECT agent_id FROM friends WHERE id = ?` names; the update
      that precedes it does not change agent_id, so the old table answers it. */
  function SenderOf(fs: seq<Friendship>, id: RowId, fallback: AgentId): (r: AgentId)
    ensures IdsAscending(fs) ==> forall f :: f in fs && f.id == id ==> r == f.sender
  {
    match FindRow(fs, id)
    case Some(row) =>
      assert IdsAscending(fs) ==> forall f :: f in fs && f.id == id ==> f == row by {
        if IdsAscending(fs) {
          forall f | f in fs && f.id == id ensures f == row {
            OnlyRowWithId(fs, f, row);
          }
        }
      }
      row.sender
    case None => fallback
  }

  /** The notification half of acceptFriendRequest: one unread row telling
      `sender` that `a` accepted. */
  function NotifyAccepted(g: Game, sender: AgentId, a: AgentId): (r: Game)
    ensures exists n :: r.notifications == g.notifications + [n] && n.recipient == sender && !n.isRead
                        && n.data == FriendAcceptedData(a)
    ensures Valid(g) ==> Valid(r)
    ensures r.(notifications := g.notifications, nextId := g.nextId) == g
  {
    Notifications.Create(g, sender, "friend", "Friend Request Accepted",
                         "Agent " + a + " accepted your friend request", FriendAcceptedData(a)).game
  }

  /** acceptFriendRequest: only the target of a pending request can accept it.
      On success that row becomes accepted and its sender gets exactly one
      notification; otherwise nothing changes. */
  function AcceptFriendRequest(g: Game, a: AgentId, id: RowId): (r: Outcome<Result<()>>)
    ensures r.reply.Ok? <==> exists f :: f in g.friends && PendingFor(f, id, a)
    ensures r.reply.Err? ==> r.reply.error == RequestNotPending && r.game == g
    ensures r.reply.Ok? ==>
      && r.game.friends == Resolve(g.friends, id, a, Accepted)
      && exists n :: r.game.notifications == g.notifications + [n] && !n.isRead && n.data == FriendAcceptedData(a)
                     && (Valid(g) ==> forall f :: f in g.friends && f.id == id ==> n.recipient == f.sender)
    ensures Valid(g) ==> Valid(r.game)
    ensures OneLivePerPair(g.friends) ==> OneLivePerPair(r.game.friends)
    ensures r.game.(friends := g.friends, notifications := g.notifications, nextId := g.nextId) == g
  {
    if PendingCount(g.friends, id, a) == 0 then Outcome(g, Err(RequestNotPending))
    else
      var g1 := g.(friends := Resolve(g.friends, id, a, Accepted));
      var sender := SenderOf(g.friends, id, a);
      assert Valid(g) ==> Valid(g1) by {
        if Valid(g) { ResolveKeepsValid(g, id, a, Accepted); }
      }
      assert OneLivePerPair(g.friends) ==> OneLivePerPair(g1.friends) by {
        if OneLivePerPair(g.friends) { ResolveKeepsOneLivePerPair(g.friends, id, a, Accepted); }
      }
      assert Valid(g) ==> IdsAscending(g.friends);
      Outcome(NotifyAccepted(g1, sender, a), Ok(()))
  }

  /** declineFriendRequest: succeeds iff a pending request with that id was
      addressed to the caller; only such rows change, to declined. */
  function DeclineFriendRequest(g: Game, a: AgentId, id: RowId): (r: Outcome<bool>)
    ensures r.reply <==> exists f :: f in g.friends && PendingFor(f, id, a)
    ensures r.game.friends == Resolve(g.friends, id, a, RequestStatus.Declined)
    ensures Valid(g) ==> Valid(r.game)
    ensures OneLivePerPair(g.friends) ==> OneLivePerPair(r.game.friends)
    ensures r.game.(friends := g.friends) == g
  {
    var fs := Resolve(g.friends, id, a, RequestStatus.Declined);
    assert Valid(g) ==> Valid(g.(friends := fs)) by {
      if Valid(g) { ResolveKeepsValid(g, id, a, RequestStatus.Declined); }
    }
    assert OneLivePerPair(g.friends) ==> OneLivePerPair(fs) by {
      if OneLivePerPair(g.friends) { ResolveKeepsOneLivePerPair(g.friends, id, a, RequestStatus.Declined); }
    }
    Outcome(g.(friends := fs), PendingCount(g.friends, id, a) > 0)
  }

  /** Accepting twice: the second accept fails and changes nothing. */
  lemma SecondAcceptFails(g: Game, a: AgentId, id: RowId)
    ensures var once := AcceptFriendRequest(g, a, id).game;
      AcceptFriendRequest(once, a, id).reply.Err? && AcceptFriendRequest(once, a, id).game == once
  {
    var once := AcceptFriendRequest(g, a, id).game;
    if AcceptFriendRequest(g, a, id).reply.Ok? {
      forall f | f in once.friends ensures !PendingFor(f, id, a) {
        var i :| 0 <= i < |once.friends| && once.friends[i] == f;
      }
    }
  }

  /** `DELETE FROM friends WHERE` the row links `a` and `b`. */
  function Unlink(fs: seq<Friendship>, a: AgentId, b: AgentId): (r: seq<Friendship>)
    ensures forall f :: f in r <==> f in fs && !Links(f, a, b)
    ensures |r| <= |fs|
    ensures |r| < |fs| <==> exists f :: f in fs && Links(f, a, b)
  {
    if |fs| == 0 then []
    else
      var rest := Unlink(fs[1..], a, b);
      assert forall f :: f in fs <==> f == fs[0] || f in fs[1..];
      if Links(fs[0], a, b) then rest else [fs[0]] + rest
  }
  /** Removing rows keeps the remaining ones in increasing id order. */
  lemma {:induction false} UnlinkAscending(fs: seq<Friendship>, a: AgentId, b: AgentId)
    decreases |fs|
    requires IdsAscending(fs)
    ensures IdsAscending(Unlink(fs, a, b))
  {
    if |fs| > 0 {
      TailAscending(fs, FriendshipId);
      UnlinkAscending(fs[1..], a, b);
      if !Links(fs[0], a, b) {
        ConsAscending(fs[0], Unlink(fs[1..], a, b), FriendshipId);
      }
    }
  }


  /** removeFriend: every row between the two, in both directions and in any
      status, is deleted; success iff there was one. */
  function RemoveFriend(g: Game, a: AgentId, b: AgentId): (r: Outcome<bool>)
    ensures r.reply <==> exists f :: f in g.friends && Links(f, a, b)
    ensures forall f :: f in r.game.friends <==> f in g.friends && !Links(f, a, b)
    ensures forall f :: f in r.game.friends ==> !Links(f, b, a)
    ensures OneLivePerPair(g.friends) ==> OneLivePerPair(r.game.friends)
    ensures r.game.(friends := g.friends) == g
  {
    var rest := Unlink(g.friends, a, b);
    Outcome(g.(friends := rest), |rest| < |g.friends|)
  }

  /** Removing a friend keeps `Valid`: the rows left keep their order. */
  lemma RemoveFriendKeepsValid(g: Game, a: AgentId, b: AgentId)
    requires Valid(g)
    ensures Valid(RemoveFriend(g, a, b).game)
  {
    var rest := Unlink(g.friends, a, b);
    assert forall i :: 0 <= i < |rest| ==> rest[i] in g.friends;
    assert IdsAscending(g.friends);
    UnlinkAscending(g.friends, a, b);
  }

  /** A row of a listing, joined with the name of the agent at the other end. */
  datatype FriendEntry = FriendEntry(friendship: Friendship, name: string)

  function ByName(x: FriendEntry, y: FriendEntry): bool
  {
    TextLe(x.name, y.name)
  }

  lemma ByNameIsTotalPreorder()
    ensures TotalPreorder(ByName)
  {
    forall x, y ensures ByName(x, y) || ByName(y, x) {
      TextLeTotal(x.name, y.name);
    }
    forall x, y, z | ByName(x, y) && ByName(y, z) ensures ByName(x, z) {
      TextLeTransitive(x.name, y.name, z.name);
    }
  }

  /** The entries' rows are in increasing id order. */
  ghost predicate EntriesAscending(es: seq<FriendEntry>)
  {
    forall i, j :: 0 <= i < j < |es| ==> es[i].friendship.id < es[j].friendship.id
  }

  /** The rows `f` of `fs` with `keep(f)` whose `other(f)` end is a known
      agent (the JOIN on agents), each with that agent's name, in table order. */
  function Join(fs: seq<Friendship>, agents: map<AgentId, Agent>, keep: Friendship -> bool,
                other: Friendship -> AgentId): (r: seq<FriendEntry>)
    ensures forall e :: e in r <==>
      e.friendship in fs && keep(e.friendship) && other(e.friendship) in agents
      && e.name == agents[other(e.friendship)].name
  {
    if |fs| == 0 then []
    else
      var rest := Join(fs[1..], agents, keep, other);
      assert forall f :: f in fs <==> f == fs[0] || f in fs[1..];
      if keep(fs[0]) && other(fs[0]) in agents
      then [FriendEntry(fs[0], agents[other(fs[0])].name)] + rest
      else rest
  }

  /** Joining keeps the table order. */
  lemma {:induction false} JoinAscending(fs: seq<Friendship>, agents: map<AgentId, Agent>, keep: Friendship -> bool,
                                          other: Friendship -> AgentId)
    ensures IdsAscending(fs) ==> EntriesAscending(Join(fs, agents, keep, other))
  {
    if |fs| > 0 && IdsAscending(fs) {
      TailAscending(fs, FriendshipId);
      JoinAscending(fs[1..], agents, keep, other);
      var rest := Join(fs[1..], agents, keep, other);
      if keep(fs[0]) && other(fs[0]) in agents {
        ConsEntryAscending(FriendEntry(fs[0], agents[other(fs[0])].name), rest);
      }
    }
  }

  /** An entry below every entry of an ascending listing can go in front of it. */
  lemma ConsEntryAscending(e: FriendEntry, rest: seq<FriendEntry>)
    requires EntriesAscending(rest) && forall x :: x in rest ==> e.friendship.id < x.friendship.id
    ensures EntriesAscending([e] + rest)
  {
    var r := [e] + rest;
    forall i, j | 0 <= i < j < |r| ensures r[i].friendship.id < r[j].friendship.id {
      assert r[j] == rest[j - 1] && r[j] in rest;
      if i > 0 {
        assert r[i] == rest[i - 1];
      }
    }
  }

  /** Reversing an ascending listing puts the newest row first. */
  lemma ReverseEntriesDescending(es: seq<FriendEntry>)
    ensures EntriesAscending(es) ==>
      forall i, j :: 0 <= i < j < |Reverse(es)| ==> Reverse(es)[i].friendship.id > Reverse(es)[j].friendship.id
  {
  }

  /** getFriends: the accepted rows the agent SENT (the other direction is not
      listed), ordered by the friend's name. */
  function GetFriends(g: Game, a: AgentId): (r: seq<FriendEntry>)
    ensures forall e :: e in r <==>
      && e.friendship in g.friends && e.friendship.sender == a && e.friendship.status == Accepted
      && e.friendship.target in g.agents && e.name == g.agents[e.friendship.target].name
    ensures SortedBy(r, ByName)
  {
    var rows := Join(g.friends, g.agents, (f: Friendship) => f.sender == a && f.status == Accepted, (f: Friendship) => f.target);
    var r := SortBy(rows, ByName);
    ByNameIsTotalPreorder();
    SortBySorted(rows, ByName);
    assert forall e :: e in r <==> e in multiset(rows);
    r
  }

  /** getIncomingFriendRequests: the pending rows addressed to the agent, with
      the sender's name, newest first. */
  function GetIncomingFriendRequests(g: Game, a: AgentId): (r: seq<FriendEntry>)
    ensures forall e :: e in r <==>
      && e.friendship in g.friends && e.friendship.target == a && e.friendship.status == RequestStatus.Pending
      && e.friendship.sender in g.agents && e.name == g.agents[e.friendship.sender].name
    ensures Valid(g) ==> forall i, j :: 0 <= i < j < |r| ==> r[i].friendship.id > r[j].friendship.id
  {
    var keep := (f: Friendship) => f.target == a && f.status == RequestStatus.Pending;
    var other := (f: Friendship) => f.sender;
    var rows := Join(g.friends, g.agents, keep, other);
    ReverseSameElements(rows);
    assert Valid(g) ==> IdsAscending(g.friends);
    JoinAscending(g.friends, g.agents, keep, other);
    ReverseEntriesDescending(rows);
    Reverse(rows)
  }

  /** getOutgoingFriendRequests: the pending rows the agent sent, with the
      target's name, newest first. */
  function GetOutgoingFriendRequests(g: Game, a: AgentId): (r: seq<FriendEntry>)
    ensures forall e :: e in r <==>
      && e.friendship in g.friends && e.friendship.sender == a && e.friendship.status == RequestStatus.Pending
      && e.friendship.target in g.agents && e.name == g.agents[e.friendship.target].name
    ensures Valid(g) ==> forall i, j :: 0 <= i < j < |r| ==> r[i].friendship.id > r[j].friendship.id
  {
    var keep := (f: Friendship) => f.sender == a && f.status == RequestStatus.Pending;
    var other := (f: Friendship) => f.target;
    var rows := Join(g.friends, g.agents, keep, other);
    ReverseSameElements(rows);
    assert Valid(g) ==> IdsAscending(g.friends);
    JoinAscending(g.friends, g.agents, keep, other);
    ReverseEntriesDescending(rows);
    Reverse(rows)
  }
}

=== FILE: messages.dfy ===
/** Direct messages between agents (src/handlers/ux/messages.ts). */
module Messages {
  import opened GameState
  import opened Ordering
  import Notifications

  /** A message of the conversation between `a` and `o`, in either direction. */
  predicate Between(m: Message, a: AgentId, o: AgentId)
  {
    (m.sender == a && m.recipient == o) || (m.sender == o && m.recipient == a)
  }

  function MessageId(x: Message): int { x.id }

  /** Row-id order, the order the table was filled in. */
  ghost predicate IdsAscending(ms: seq<Message>)
  {
    AscendingBy(ms, MessageId)
  }

  /** The insert half of sendMessage: one unread message under the next id
      and one notification to the recipient. */
  function Deliver(g: Game, sender: AgentId, recipient: AgentId, body: string): (r: Outcome<RowId>)
    ensures r.reply == g.nextId && r.game.nextId == g.nextId + 2
    ensures r.game.messages == g.messages + [Message(r.reply, sender, recipient, body, false)]
    ensures exists n :: r.game.notifications == g.notifications + [n]
                        && n.recipient == recipient && !n.isRead && n.data == MessageData(sender, r.reply)
    ensures Valid(g) ==> Valid(r.game) && forall m :: m in g.messages ==> m.id != r.reply
    ensures r.game.(messages := g.messages, notifications := g.notifications, nextId := g.nextId) == g
  {
    var id := g.nextId;
    var g1 := g.(messages := g.messages + [Message(id, sender, recipient, body, false)], nextId := id + 1);
    var sent := Notifications.Create(g1, recipient, "message", "New Message",
                                     "You have a new message from " + sender, MessageData(sender, id));
    Outcome(sent.game, id)
  }

  /** sendMessage: stores exactly one unread message from `sender` to the
      recipient and notifies the recipient once. Nothing about friendship is
      required: the source looks the friendship up and ignores the answer. */
  function SendMessage(g: Game, cfg: Config, sender: AgentId, recipient: AgentId, body: string): (r: Outcome<RowId>)
    ensures recipient in r.game.agents
    ensures r.game.messages == g.messages + [Message(r.reply, sender, recipient, body, false)]
    ensures exists n :: r.game.notifications == g.notifications + [n]
                        && n.recipient == recipient && !n.isRead && n.data == MessageData(sender, r.reply)
    ensures Valid(g) ==> Valid(r.game) && forall m :: m in g.messages ==> m.id != r.reply
    ensures var e := EnsureAgent(g, cfg, recipient);
      r.game.(messages := e.messages, notifications := e.notifications, nextId := e.nextId) == e
  {
    Deliver(EnsureAgent(g, cfg, recipient), sender, recipient, body)
  }

  /** The messages between `a` and `o`, oldest first. */
  function Thread(ms: seq<Message>, a: AgentId, o: AgentId): (r: seq<Message>)
    ensures forall m :: m in r <==> m in ms && Between(m, a, o)
  {
    if |ms| == 0 then []
    else
      var rest := Thread(ms[1..], a, o);
      assert forall m :: m in ms <==> m == ms[0] || m in ms[1..];
      if Between(ms[0], a, o) then [ms[0]] + rest else rest
  }

  /** Selecting a thread keeps the stored order. */
  lemma {:induction false} ThreadAscending(ms: seq<Message>, a: AgentId, o: AgentId)
    requires IdsAscending(ms)
    ensures IdsAscending(Thread(ms, a, o))
  {
    if |ms| > 0 {
      TailAscending(ms, MessageId);
      ThreadAscending(ms[1..], a, o);
      if Between(ms[0], a, o) {
        ConsAscending(ms[0], Thread(ms[1..], a, o), MessageId);
      }
    }
  }

  datatype Direction = Sent | Received

  datatype Entry = Entry(message: Message, direction: Direction)

  /** The newest `limit` of `t`, in `t`'s order; all of `t` for a negative limit. */
  function Newest(t: seq<Message>, limit: int): (r: seq<Message>)
    ensures |r| == (if 0 <= limit < |t| then limit else |t|)
    ensures r == t[|t| - |r|..]
  {
    if 0 <= limit < |t| then t[|t| - limit..] else t
  }

  /** Tags each message 'sent' iff `a` sent it. */
  function Tag(ms: seq<Message>, a: AgentId): (r: seq<Entry>)
    ensures |r| == |ms|
    ensures forall i :: 0 <= i < |ms| ==> r[i].message == ms[i] && (r[i].direction == Sent <==> ms[i].sender == a)
  {
    seq(|ms|, i requires 0 <= i < |ms| => Entry(ms[i], if ms[i].sender == a then Sent else Received))
  }

  /** getConversation(a, o, limit): the newest `limit` messages between the two
      (`ORDER BY created_at DESC LIMIT ?`), shown oldest first, each tagged
      'sent' iff `a` sent it. SQLite reads a negative LIMIT as no limit. */
  function GetConversation(g: Game, a: AgentId, o: AgentId, limit: int): (r: seq<Entry>)
    ensures limit >= 0 ==> |r| <= limit
    ensures var t := Thread(g.messages, a, o);
      && |r| == (if 0 <= limit < |t| then limit else |t|)
      && forall i :: 0 <= i < |r| ==>
           r[i].message == t[|t| - |r|..][i] && (r[i].direction == Sent <==> r[i].message.sender == a)
  {
    Tag(Newest(Thread(g.messages, a, o), limit), a)
  }

  /** Every entry of a conversation is a stored message between the two. */
  lemma ConversationMembers(g: Game, a: AgentId, o: AgentId, limit: int)
    ensures var r := GetConversation(g, a, o, limit);
      forall i :: 0 <= i < |r| ==> r[i].message in g.messages && Between(r[i].message, a, o)
  {
    var t := Thread(g.messages, a, o);
    var r := GetConversation(g, a, o, limit);
    forall i | 0 <= i < |r| ensures r[i].message in g.messages && Between(r[i].message, a, o) {
      assert r[i].message in t;
    }
  }

  /** A conversation is shown oldest first. */
  lemma ConversationAscending(g: Game, a: AgentId, o: AgentId, limit: int)
    requires Valid(g)
    ensures var r := GetConversation(g, a, o, limit);
      forall i, j :: 0 <= i < j < |r| ==> r[i].message.id < r[j].message.id
  {
    assert IdsAscending(g.messages);
    ThreadAscending(g.messages, a, o);
    var t := Thread(g.messages, a, o);
    NewestAscending(t, limit);
    var recent := Newest(t, limit);
    var r := GetConversation(g, a, o, limit);
    forall i, j | 0 <= i < j < |r| ensures r[i].message.id < r[j].message.id {
      assert r[i].message == recent[i] && r[j].message == recent[j];
    }
  }

  lemma NewestAscending(t: seq<Message>, limit: int)
    requires IdsAscending(t)
    ensures IdsAscending(Newest(t, limit))
  {
    var r := Newest(t, limit);
    var k := |t| - |r|;
    forall i, j | 0 <= i < j < |r| ensures r[i].id < r[j].id {
      assert r[i] == t[k + i] && r[j] == t[k + j];
    }
  }

  /** The rows `markMessageAsRead(id, a)` changes: `WHERE id = ? AND
      recipient_agent_id = ? AND is_read = FALSE`. */
  predicate Unread(m: Message, id: RowId, a: AgentId)
  {
    m.id == id && m.recipient == a && !m.isRead
  }

  function UnreadMatches(ms: seq<Message>, id: RowId, a: AgentId): (r: nat)
    ensures r > 0 <==> exists m :: m in ms && Unread(m, id, a)
  {
    if |ms| == 0 then 0
    else
      assert forall m :: m in ms <==> m == ms[0] || m in ms[1..];
      (if Unread(ms[0], id, a) then 1 else 0) + UnreadMatches(ms[1..], id, a)
  }

  function MarkUnread(ms: seq<Message>, id: RowId, a: AgentId): (r: seq<Message>)
    ensures |r| == |ms|
    ensures forall i :: 0 <= i < |ms| ==>
      r[i] == (if Unread(ms[i], id, a) then ms[i].(isRead := true) else ms[i])
  {
    if |ms| == 0 then []
    else [if Unread(ms[0], id, a) then ms[0].(isRead := true) else ms[0]] + MarkUnread(ms[1..], id, a)
  }

  /** markMessageAsRead: succeeds iff the caller is the recipient of an unread
      message with that id; that message is read afterwards and nothing else
      changes. */
  function MarkMessageAsRead(g: Game, id: RowId, a: AgentId): (r: Outcome<bool>)
    ensures r.reply <==> exists m :: m in g.messages && Unread(m, id, a)
    ensures |r.game.messages| == |g.messages|
    ensures forall i :: 0 <= i < |g.messages| ==>
      if Unread(g.messages[i], id, a)
      then r.game.messages[i] == g.messages[i].(isRead := true)
      else r.game.messages[i] == g.messages[i]
    ensures r.game.(messages := g.messages) == g
  {
    var changes := UnreadMatches(g.messages, id, a);
    Outcome(g.(messages := MarkUnread(g.messages, id, a)), changes > 0)
  }

  /** Marking a message read a second time fails and changes nothing. */
  lemma SecondMarkFails(g: Game, id: RowId, a: AgentId)
    ensures var once := MarkMessageAsRead(g, id, a).game;
      && !MarkMessageAsRead(once, id, a).reply
      && MarkMessageAsRead(once, id, a).game == once
  {
    var once := MarkMessageAsRead(g, id, a).game;
    assert forall m :: m in once.messages ==> !Unread(m, id, a);
    var twice := MarkMessageAsRead(once, id, a).game;
    assert twice.messages == once.messages;
  }

  /** The unread messages addressed to `a`, in table order. */
  function UnreadFor(ms: seq<Message>, a: AgentId): (r: seq<Message>)
    ensures forall m :: m in r <==> m in ms && m.recipient == a && !m.isRead
  {
    if |ms| == 0 then []
    else
      assert forall m :: m in ms <==> m == ms[0] || m in ms[1..];
      (if ms[0].recipient == a && !ms[0].isRead then [ms[0]] else []) + UnreadFor(ms[1..], a)
  }

  /** The number of unread messages addressed to `a`. */
  function UnreadCount(ms: seq<Message>, a: AgentId): nat
  {
    if |ms| == 0 then 0
    else (if ms[0].recipient == a && !ms[0].isRead then 1 else 0) + UnreadCount(ms[1..], a)
  }

  lemma {:induction false} UnreadCountIsUnreadListing(ms: seq<Message>, a: AgentId)
    ensures UnreadCount(ms, a) == |UnreadFor(ms, a)|
  {
    if |ms| > 0 {
      UnreadCountIsUnreadListing(ms[1..], a);
    }
  }

  /** getUnreadMessageCount: as many as there are unread messages to `a`. */
  function GetUnreadMessageCount(g: Game, a: AgentId): (r: nat)
    ensures r == |UnreadFor(g.messages, a)|
  {
    UnreadCountIsUnreadListing(g.messages, a);
    UnreadCount(g.messages, a)
  }

  /** The rows `deleteMessage(id, a)` removes: `WHERE id = ? AND sender_agent_id = ?`. */
  predicate SentBy(m: Message, id: RowId, a: AgentId)
  {
    m.id == id && m.sender == a
  }

  function DeleteSent(ms: seq<Message>, id: RowId, a: AgentId): (r: seq<Message>)
    ensures forall m :: m in r <==> m in ms && !SentBy(m, id, a)
    ensures |r| <= |ms|
    ensures |r| < |ms| <==> exists m :: m in ms && SentBy(m, id, a)
  {
    if |ms| == 0 then []
    else
      var rest := DeleteSent(ms[1..], id, a);
      assert forall m :: m in ms <==> m == ms[0] || m in ms[1..];
      if SentBy(ms[0], id, a) then rest else [ms[0]] + rest
  }
  /** Deleting messages keeps the remaining ones in increasing id order. */
  lemma {:induction false} DeleteSentAscending(ms: seq<Message>, id: RowId, a: AgentId)
    decreases |ms|
    requires IdsAscending(ms)
    ensures IdsAscending(DeleteSent(ms, id, a))
  {
    if |ms| > 0 {
      TailAscending(ms, MessageId);
      DeleteSentAscending(ms[1..], id, a);
      if !SentBy(ms[0], id, a) {
        ConsAscending(ms[0], DeleteSent(ms[1..], id, a), MessageId);
      }
    }
  }


  /** deleteMessage: only the sender can delete; succeeds iff a message with
      that id sent by the caller was removed. */
  function DeleteMessage(g: Game, id: RowId, a: AgentId): (r: Outcome<bool>)
    ensures r.reply <==> exists m :: m in g.messages && SentBy(m, id, a)
    ensures forall m :: m in r.game.messages <==> m in g.messages && !SentBy(m, id, a)
    ensures r.game.(messages := g.messages) == g
  {
    var rest := DeleteSent(g.messages, id, a);
    Outcome(g.(messages := rest), |rest| < |g.messages|)
  }

  /** Deleting a message keeps `Valid`: the rows left keep their order. */
  lemma DeleteMessageKeepsValid(g: Game, id: RowId, a: AgentId)
    requires Valid(g)
    ensures Valid(DeleteMessage(g, id, a).game)
  {
    var rest := DeleteSent(g.messages, id, a);
    assert forall i :: 0 <= i < |rest| ==> rest[i] in g.messages;
    assert IdsAscending(g.messages);
    DeleteSentAscending(g.messages, id, a);
  }
}

=== FILE: notifications.dfy ===
/** The notification inbox (src/handlers/ux/notifications.ts). */
module Notifications {
  import opened GameState
  import opened Ordering

  /** The row that `markNotificationAsRead(id, a)` and `deleteNotification(id, a)`
      address: `WHERE id = ? AND recipient_agent_id = ?`. */
  predicate Addressed(n: Notification, id: RowId, a: AgentId)
  {
    n.id == id && n.recipient == a
  }

  /** The rows `getNotifications(a, includeRead)` selects. */
  predicate Listed(n: Notification, a: AgentId, includeRead: bool)
  {
    n.recipient == a && (includeRead || !n.isRead)
  }

  function NotificationId(x: Notification): int { x.id }

  /** Row-id order, the order the table was filled in. */
  ghost predicate IdsAscending(ns: seq<Notification>)
  {
    AscendingBy(ns, NotificationId)
  }

  /** The number of `a`'s unread notifications. */
  function UnreadCount(ns: seq<Notification>, a: AgentId): nat
  {
    if |ns| == 0 then 0
    else (if Listed(ns[0], a, false) then 1 else 0) + UnreadCount(ns[1..], a)
  }

  lemma {:induction false} UnreadCountAppend(ns: seq<Notification>, n: Notification, a: AgentId)
    ensures UnreadCount(ns + [n], a) == UnreadCount(ns, a) + (if Listed(n, a, false) then 1 else 0)
  {
    if |ns| > 0 {
      assert (ns + [n])[1..] == ns[1..] + [n];
      UnreadCountAppend(ns[1..], n, a);
    }
  }

  /** createNotification: appends one unread row under the next id and returns that id. */
  function Create(g: Game, recipient: AgentId, kind: string, title: string, message: string,
                  data: NotificationData): (r: Outcome<RowId>)
    ensures r.reply == g.nextId && r.game.nextId == g.nextId + 1
    ensures r.game.notifications == g.notifications + [Notification(r.reply, recipient, kind, title, message, data, false)]
    ensures r.game.(notifications := g.notifications, nextId := g.nextId) == g
  {
    var n := Notification(g.nextId, recipient, kind, title, message, data, false);
    Outcome(g.(notifications := g.notifications + [n], nextId := g.nextId + 1), g.nextId)
  }

  /** A created notification is new (its id is no existing row's id), it is
      the recipient's one extra unread notification, and no other agent's
      unread count moves. */
  lemma CreateAddsOneUnread(g: Game, recipient: AgentId, kind: string, title: string, message: string,
                            data: NotificationData)
    requires Valid(g)
    ensures var r := Create(g, recipient, kind, title, message, data);
      && Valid(r.game)
      && (forall n :: n in g.notifications ==> n.id != r.reply)
      && UnreadCount(r.game.notifications, recipient) == UnreadCount(g.notifications, recipient) + 1
      && forall b :: b != recipient ==> UnreadCount(r.game.notifications, b) == UnreadCount(g.notifications, b)
  {
    var r := Create(g, recipient, kind, title, message, data);
    var n := Notification(g.nextId, recipient, kind, title, message, data, false);
    UnreadCountAppend(g.notifications, n, recipient);
    forall b | b != recipient
      ensures UnreadCount(r.game.notifications, b) == UnreadCount(g.notifications, b)
    {
      UnreadCountAppend(g.notifications, n, b);
    }
  }

  /** The rows `Listed` for `a`, in table order. */
  function Inbox(ns: seq<Notification>, a: AgentId, includeRead: bool): (r: seq<Notification>)
    ensures forall n :: n in r <==> n in ns && Listed(n, a, includeRead)
    ensures IdsAscending(ns) ==> IdsAscending(r)
  {
    if |ns| == 0 then []
    else
      var rest := Inbox(ns[1..], a, includeRead);
      assert forall n :: n in ns <==> n == ns[0] || n in ns[1..];
      if Listed(ns[0], a, includeRead) then
        assert IdsAscending(ns) ==> forall n :: n in rest ==> ns[0].id < n.id;
        [ns[0]] + rest
      else rest
  }

  /** getNotifications: exactly the agent's own rows, unread ones only unless
      `includeRead`, newest first. */
  function GetNotifications(g: Game, a: AgentId, includeRead: bool): (r: seq<Notification>)
    ensures forall n :: n in r <==> n in g.notifications && n.recipient == a && (includeRead || !n.isRead)
    ensures Valid(g) ==> forall i, j :: 0 <= i < j < |r| ==> r[i].id > r[j].id
  {
    var listed := Inbox(g.notifications, a, includeRead);
    ReverseSameElements(listed);
    Reverse(listed)
  }

  /** getNotificationCount is the length of the unread listing. */
  lemma {:induction false} UnreadCountIsUnreadListing(ns: seq<Notification>, a: AgentId)
    ensures UnreadCount(ns, a) == |Inbox(ns, a, false)|
  {
    if |ns| > 0 {
      UnreadCountIsUnreadListing(ns[1..], a);
    }
  }

  /** getNotificationCount. */
  function GetNotificationCount(g: Game, a: AgentId): (r: nat)
    ensures r == |GetNotifications(g, a, false)|
  {
    UnreadCountIsUnreadListing(g.notifications, a);
    UnreadCount(g.notifications, a)
  }

  /** How many rows `WHERE id = ? AND recipient_agent_id = ?` matches: the
      `changes` of the update, which counts rows already read too. */
  function AddressedCount(ns: seq<Notification>, id: RowId, a: AgentId): (r: nat)
    ensures r > 0 <==> exists n :: n in ns && Addressed(n, id, a)
  {
    if |ns| == 0 then 0
    else
      assert forall n :: n in ns <==> n == ns[0] || n in ns[1..];
      (if Addressed(ns[0], id, a) then 1 else 0) + AddressedCount(ns[1..], id, a)
  }

  /** `UPDATE notifications SET is_read = TRUE WHERE id = ? AND recipient_agent_id = ?`. */
  function MarkAddressed(ns: seq<Notification>, id: RowId, a: AgentId): (r: seq<Notification>)
    ensures |r| == |ns|
    ensures forall i :: 0 <= i < |ns| ==>
      r[i] == (if Addressed(ns[i], id, a) then ns[i].(isRead := true) else ns[i])
  {
    if |ns| == 0 then []
    else [if Addressed(ns[0], id, a) then ns[0].(isRead := true) else ns[0]] + MarkAddressed(ns[1..], id, a)
  }

  /** markNotificationAsRead: succeeds iff the caller owns a row with that id,
      whether or not it was already read; that row is read afterwards, and no
      other row and no other table changes. */
  function MarkNotificationAsRead(g: Game, id: RowId, a: AgentId): (r: Outcome<bool>)
    ensures r.reply <==> exists n :: n in g.notifications && Addressed(n, id, a)
    ensures |r.game.notifications| == |g.notifications|
    ensures forall i :: 0 <= i < |g.notifications| ==>
      if Addressed(g.notifications[i], id, a)
      then r.game.notifications[i].isRead && r.game.notifications[i].(isRead := false) == g.notifications[i].(isRead := false)
      else r.game.notifications[i] == g.notifications[i]
    ensures r.game.(notifications := g.notifications) == g
  {
    var changes := AddressedCount(g.notifications, id, a);
    Outcome(g.(notifications := MarkAddressed(g.notifications, id, a)), changes > 0)
  }

  /** `UPDATE notifications SET is_read = TRUE WHERE recipient_agent_id = ? AND is_read = FALSE`. */
  function MarkAllOf(ns: seq<Notification>, a: AgentId): (r: seq<Notification>)
    ensures |r| == |ns|
    ensures UnreadCount(r, a) == 0
    ensures forall b :: b != a ==> UnreadCount(r, b) == UnreadCount(ns, b)
    ensures forall i :: 0 <= i < |ns| && ns[i].recipient != a ==> r[i] == ns[i]
    ensures forall i :: 0 <= i < |ns| && ns[i].recipient == a ==>
      r[i].isRead && r[i].(isRead := false) == ns[i].(isRead := false)
  {
    if |ns| == 0 then []
    else
      var head := if Listed(ns[0], a, false) then ns[0].(isRead := true) else ns[0];
      var r := [head] + MarkAllOf(ns[1..], a);
      assert r[1..] == MarkAllOf(ns[1..], a);
      r
  }

  /** markAllNotificationsAsRead: reports how many were unread; every row of
      the agent is read afterwards and otherwise as it was, and every other
      agent's notifications are as they were. */
  function MarkAllNotificationsAsRead(g: Game, a: AgentId): (r: Outcome<nat>)
    ensures r.reply == UnreadCount(g.notifications, a)
    ensures UnreadCount(r.game.notifications, a) == 0
    ensures forall b :: b != a ==> UnreadCount(r.game.notifications, b) == UnreadCount(g.notifications, b)
    ensures |r.game.notifications| == |g.notifications|
    ensures forall i :: 0 <= i < |g.notifications| && g.notifications[i].recipient != a ==>
      r.game.notifications[i] == g.notifications[i]
    ensures forall i :: 0 <= i < |g.notifications| && g.notifications[i].recipient == a ==>
      r.game.notifications[i].isRead && r.game.notifications[i].(isRead := false) == g.notifications[i].(isRead := false)
    ensures r.game.(notifications := g.notifications) == g
  {
    Outcome(g.(notifications := MarkAllOf(g.notifications, a)), UnreadCount(g.notifications, a))
  }

  /** `DELETE FROM notifications WHERE id = ? AND recipient_agent_id = ?`. */
  function DeleteAddressed(ns: seq<Notification>, id: RowId, a: AgentId): (r: seq<Notification>)
    ensures forall n :: n in r <==> n in ns && !Addressed(n, id, a)
    ensures |r| <= |ns|
    ensures |r| < |ns| <==> exists n :: n in ns && Addressed(n, id, a)
  {
    if |ns| == 0 then []
    else
      var rest := DeleteAddressed(ns[1..], id, a);
      assert forall n :: n in ns <==> n == ns[0] || n in ns[1..];
      if Addressed(ns[0], id, a) then rest else [ns[0]] + rest
  }

  /** Deleting rows keeps the remaining ones in increasing id order. */
  lemma {:induction false} DeleteAddressedAscending(ns: seq<Notification>, id: RowId, a: AgentId)
    decreases |ns|
    requires IdsAscending(ns)
    ensures IdsAscending(DeleteAddressed(ns, id, a))
  {
    if |ns| > 0 {
      TailAscending(ns, NotificationId);
      DeleteAddressedAscending(ns[1..], id, a);
      if !Addressed(ns[0], id, a) {
        ConsAscending(ns[0], DeleteAddressed(ns[1..], id, a), NotificationId);
      }
    }
  }

  /** deleteNotification: succeeds iff the caller owned a row with that id; such
      rows, and only they, are gone. */
  function DeleteNotification(g: Game, id: RowId, a: AgentId): (r: Outcome<bool>)
    ensures r.reply <==> exists n :: n in g.notifications && Addressed(n, id, a)
    ensures forall n :: n in r.game.notifications <==> n in g.notifications && !Addressed(n, id, a)
    ensures r.game.(notifications := g.notifications) == g
  {
    var rest := DeleteAddressed(g.notifications, id, a);
    Outcome(g.(notifications := rest), |rest| < |g.notifications|)
  }

  /** Deleting a notification keeps `Valid`: the rows left keep their order. */
  lemma DeleteNotificationKeepsValid(g: Game, id: RowId, a: AgentId)
    requires Valid(g)
    ensures Valid(DeleteNotification(g, id, a).game)
  {
    var rest := DeleteAddressed(g.notifications, id, a);
    assert forall i :: 0 <= i < |rest| ==> rest[i] in g.notifications;
    assert IdsAscending(g.notifications);
    DeleteAddressedAscending(g.notifications, id, a);
  }
}

=== FILE: ordering.dfy ===
/** The orders the handlers' queries ask SQLite for: `ORDER BY name` (binary
    collation, i.e. code point order on the text), `ORDER BY created_at DESC`
    (the reverse of insertion order), and the stable sort both rest on. */
module Ordering {

  /** Binary-collation order on text: lexicographic on code points, a proper
      prefix first. */
  predicate TextLe(a: string, b: string)
  {
    |a| == 0 || (|b| > 0 && (a[0] < b[0] || (a[0] == b[0] && TextLe(a[1..], b[1..]))))
  }

  lemma {:induction false} TextLeTotal(a: string, b: string)
    ensures TextLe(a, b) || TextLe(b, a)
  {
    if |a| > 0 && |b| > 0 && a[0] == b[0] {
      TextLeTotal(a[1..], b[1..]);
    }
  }

  lemma {:induction false} TextLeTransitive(a: string, b: string, c: string)
    requires TextLe(a, b) && TextLe(b, c)
    ensures TextLe(a, c)
  {
    if |a| > 0 && |b| > 0 && |c| > 0 && a[0] == b[0] && b[0] == c[0] {
      TextLeTransitive(a[1..], b[1..], c[1..]);
    }
  }

  lemma {:induction false} TextLeAntisymmetric(a: string, b: string)
    requires TextLe(a, b) && TextLe(b, a)
    ensures a == b
  {
    if |a| > 0 && |b| > 0 {
      TextLeAntisymmetric(a[1..], b[1..]);
      assert a == [a[0]] + a[1..] && b == [b[0]] + b[1..];
    }
  }

  /** `le` may serve an ORDER BY: every two rows compare, and transitively. */
  ghost predicate TotalPreorder<T(!new)>(le: (T, T) -> bool)
  {
    && (forall x, y :: le(x, y) || le(y, x))
    && (forall x, y, z :: le(x, y) && le(y, z) ==> le(x, z))
  }

  ghost predicate SortedBy<T>(xs: seq<T>, le: (T, T) -> bool)
  {
    forall i, j :: 0 <= i < j < |xs| ==> le(xs[i], xs[j])
  }

  /** Strictly ascending under `key`: a table read in row-id order, since
      every row takes the next id when it is inserted. */
  ghost predicate AscendingBy<T>(xs: seq<T>, key: T -> int)
  {
    forall i, j :: 0 <= i < j < |xs| ==> key(xs[i]) < key(xs[j])
  }

  /** The rows after the first of an ascending table are ascending and all
      above the first. */
  lemma TailAscending<T>(xs: seq<T>, key: T -> int)
    requires |xs| > 0 && AscendingBy(xs, key)
    ensures AscendingBy(xs[1..], key) && forall x :: x in xs[1..] ==> key(xs[0]) < key(x)
  {
    var tail := xs[1..];
    forall i, j | 0 <= i < j < |tail| ensures key(tail[i]) < key(tail[j]) {
      assert tail[i] == xs[i + 1] && tail[j] == xs[j + 1];
    }
    forall x | x in tail ensures key(xs[0]) < key(x) {
      var j :| 0 <= j < |tail| && tail[j] == x;
      assert xs[j + 1] == x;
    }
  }

  /** A row below every row of an ascending table can go in front of it. */
  lemma ConsAscending<T>(x: T, rest: seq<T>, key: T -> int)
    requires AscendingBy(rest, key) && forall y :: y in rest ==> key(x) < key(y)
    ensures AscendingBy([x] + rest, key)
  {
    var r := [x] + rest;
    forall i, j | 0 <= i < j < |r| ensures key(r[i]) < key(r[j]) {
      assert r[j] == rest[j - 1] && r[j] in rest;
      if i > 0 {
        assert r[i] == rest[i - 1];
      }
    }
  }

  function Reverse<T>(xs: seq<T>): (r: seq<T>)
    ensures |r| == |xs|
    ensures forall i :: 0 <= i < |xs| ==> r[i] == xs[|xs| - 1 - i]
  {
    if |xs| == 0 then [] else Reverse(xs[1..]) + [xs[0]]
  }

  lemma ReverseSameElements<T>(xs: seq<T>)
    ensures forall x :: x in Reverse(xs) <==> x in xs
    ensures multiset(Reverse(xs)) == multiset(xs)
  {
    var r := Reverse(xs);
    forall x | x in xs ensures x in r {
      var i :| 0 <= i < |xs| && xs[i] == x;
      assert r[|xs| - 1 - i] == x;
    }
    ReverseMultiset(xs);
  }

  lemma {:induction false} ReverseMultiset<T>(xs: seq<T>)
    ensures multiset(Reverse(xs)) == multiset(xs)
  {
    if |xs| > 0 {
      ReverseMultiset(xs[1..]);
      assert xs == [xs[0]] + xs[1..];
    }
  }

  /** Places `x` before the first element it is not above. */
  function Insert<T>(x: T, xs: seq<T>, le: (T, T) -> bool): (r: seq<T>)
    ensures multiset(r) == multiset(xs) + multiset{x}
  {
    if |xs| == 0 then [x]
    else if le(x, xs[0]) then [x] + xs
    else
      assert xs == [xs[0]] + xs[1..];
      [xs[0]] + Insert(x, xs[1..], le)
  }

  /** Insertion sort: a permutation of `xs`, stable for elements that compare
      both ways. */
  function SortBy<T>(xs: seq<T>, le: (T, T) -> bool): (r: seq<T>)
    ensures multiset(r) == multiset(xs)
  {
    if |xs| == 0 then []
    else
      assert xs == [xs[0]] + xs[1..];
      Insert(xs[0], SortBy(xs[1..], le), le)
  }

  lemma {:induction false} InsertSorted<T(!new)>(x: T, xs: seq<T>, le: (T, T) -> bool)
    requires TotalPreorder(le)
    requires SortedBy(xs, le)
    ensures SortedBy(Insert(x, xs, le), le)
  {
    if |xs| == 0 {
    } else if le(x, xs[0]) {
      var r := [x] + xs;
      forall i, j | 0 <= i < j < |r| ensures le(r[i], r[j]) {
        if i == 0 && j > 1 {
          assert le(xs[0], xs[j - 1]);
        }
      }
    } else {
      var tail := Insert(x, xs[1..], le);
      InsertSorted(x, xs[1..], le);
      assert le(xs[0], x);
      var r := [xs[0]] + tail;
      forall j | 0 <= j < |tail| ensures le(xs[0], tail[j]) {
        assert tail[j] in multiset(tail);
        assert tail[j] == x || tail[j] in multiset(xs[1..]);
        if tail[j] != x {
          var k :| 0 <= k < |xs[1..]| && xs[1..][k] == tail[j];
          assert le(xs[0], xs[k + 1]);
        }
      }
      forall i, j | 0 <= i < j < |r| ensures le(r[i], r[j]) {
        if i == 0 {
          assert r[j] == tail[j - 1];
        } else {
          assert r[i] == tail[i - 1] && r[j] == tail[j - 1];
        }
      }
    }
  }

  lemma {:induction false} SortBySorted<T(!new)>(xs: seq<T>, le: (T, T) -> bool)
    requires TotalPreorder(le)
    ensures SortedBy(SortBy(xs, le), le)
  {
    if |xs| > 0 {
      SortBySorted(xs[1..], le);
      InsertSorted(xs[0], SortBy(xs[1..], le), le);
    }
  }
}

=== FILE: state.dfy ===
/** The game state of the Moltimon backend: one immutable record holding every
    table the game-rule handlers read and write, the row types of those tables,
    and the few helpers that several handlers share (card ownership, stat
    updates, agent and pack creation). */
module GameState {

  type AgentId = string
  type CardId = string
  /** Row ids. The source draws them from uuidv4; the model draws them from the
      state's `nextId` counter, so a new id is fresh whenever `Valid` holds. */
  type RowId = nat
  /** A calendar day "YYYY-MM-DD", as stored in agents.last_login_date. */
  type Date = string

  datatype Option<T> = None | Some(value: T)

  /** The `error` of a `{ success: false }` reply. */
  datatype Error =
    | CardNotOwned(card: CardId)        // "You don't own this card" / "You don't own card <id>"
    | BattleNotPending                  // "Battle not found or not pending"
    | DefenderCardNotOwned              // "Card not found or not yours"
    | TradeNotPending                   // "Trade not found or not pending"
    | AlreadyFriends                    // "Already friends"
    | RequestAlreadyPending             // "Friend request already pending"
    | RequestNotPending                 // "Friend request not found or not pending"
    | TooManyDecks                      // "Maximum 10 decks allowed"
    | DeckNotFound                      // "Deck not found"
    | CardNotInCollection(card: CardId) // "Card <id> not found in your collection"
    | NoActiveDeck                      // "No active deck set"

  datatype Result<T> = Ok(value: T) | Err(error: Error)

  /** The state after a handler ran, and the handler's reply. */
  datatype Outcome<T> = Outcome(game: Game, reply: T)

  datatype Agent = Agent(name: string, lastLoginDate: Option<Date>)

  /** The columns of agent_stats; a stat reward names one of them. */
  datatype StatField =
    Wins | Losses | Draws | Elo | BattlesSinceLastPack | TradesCompleted | CardsCollected | Karma

  datatype Stats = Stats(
    wins: int, losses: int, draws: int, elo: int, battlesSinceLastPack: int,
    tradesCompleted: int, cardsCollected: int, karma: int)

  function StatOf(st: Stats, f: StatField): int
  {
    match f
    case Wins => st.wins
    case Losses => st.losses
    case Draws => st.draws
    case Elo => st.elo
    case BattlesSinceLastPack => st.battlesSinceLastPack
    case TradesCompleted => st.tradesCompleted
    case CardsCollected => st.cardsCollected
    case Karma => st.karma
  }

  /** `SET f = v` on one stats row. */
  function SetStat(st: Stats, f: StatField, v: int): (r: Stats)
    ensures StatOf(r, f) == v
    ensures forall h :: h != f ==> StatOf(r, h) == StatOf(st, h)
  {
    match f
    case Wins => st.(wins := v)
    case Losses => st.(losses := v)
    case Draws => st.(draws := v)
    case Elo => st.(elo := v)
    case BattlesSinceLastPack => st.(battlesSinceLastPack := v)
    case TradesCompleted => st.(tradesCompleted := v)
    case CardsCollected => st.(cardsCollected := v)
    case Karma => st.(karma := v)
  }

  /** `UPDATE agent_stats SET f = f + n WHERE agent_id = a`: an agent without a
      stats row is left alone, as an UPDATE that matches no row. */
  function BumpStat(stats: map<AgentId, Stats>, a: AgentId, f: StatField, n: int): (r: map<AgentId, Stats>)
    ensures r.Keys == stats.Keys
    ensures forall b, h :: b in stats ==>
      StatOf(r[b], h) == StatOf(stats[b], h) + (if b == a && h == f then n else 0)
  {
    if a in stats then stats[a := SetStat(stats[a], f, StatOf(stats[a], f) + n)] else stats
  }

  /** `UPDATE agent_stats SET f = v WHERE agent_id = a`. */
  function ResetStat(stats: map<AgentId, Stats>, a: AgentId, f: StatField, v: int): (r: map<AgentId, Stats>)
    ensures r.Keys == stats.Keys
    ensures forall b, h :: b in stats ==>
      StatOf(r[b], h) == (if b == a && h == f then v else StatOf(stats[b], h))
  {
    if a in stats then stats[a := SetStat(stats[a], f, v)] else stats
  }

  /** A card row; `owner_agent_id` may be NULL. */
  datatype Card = Card(owner: Option<AgentId>)

  datatype PackType = Starter | Standard | Premium | Legendary

  datatype Pack = Pack(owner: AgentId, packType: PackType, isOpened: bool)

  datatype BattleStatus = Pending | Completed | Declined

  datatype Battle = Battle(
    challenger: AgentId, defender: AgentId, challengerCard: CardId,
    defenderCard: Option<CardId>, challengerPower: Option<int>, defenderPower: Option<int>,
    winner: Option<AgentId>, status: BattleStatus)

  /** Status of a trade or of a friendship row. */
  datatype RequestStatus = Pending | Accepted | Declined

  datatype Trade = Trade(
    from: AgentId, to: AgentId, offered: seq<CardId>, wanted: seq<CardId>, status: RequestStatus)

  /** A row of the friends table: `sender` is agent_id, `target` is friend_id. */
  datatype Friendship = Friendship(id: RowId, sender: AgentId, target: AgentId, status: RequestStatus)

  datatype Deck = Deck(owner: AgentId, name: string, description: string, cards: seq<CardId>, active: bool)

  /** The JSON requirement of an achievement. A threshold of 0 stands for a key
      that is absent: the source tests each key for truthiness first. */
  datatype Requirement = Requirement(
    battlesCompleted: nat, wins: nat, cardsCollected: nat, friendsMade: nat, tradesCompleted: nat)

  datatype Reward = PackReward(packType: PackType) | StatReward(stat: StatField, amount: int) | NoReward

  datatype Achievement = Achievement(
    id: RowId, name: string, description: string, category: string,
    requirement: Requirement, reward: Reward)

  /** A row of agent_achievements. */
  datatype Award = Award(agent: AgentId, achievement: RowId)

  /** The JSON `data` column of a notification. */
  datatype NotificationData =
    | FriendRequestData(sender: AgentId, friendshipId: RowId)
    | FriendAcceptedData(friend: AgentId)
    | AchievementData(achievement: string, reward: Reward)
    | MessageData(sender: AgentId, messageId: RowId)
    | NoData

  datatype Notification = Notification(
    id: RowId, recipient: AgentId, kind: string, title: string, message: string,
    data: NotificationData, isRead: bool)

  datatype Message = Message(id: RowId, sender: AgentId, recipient: AgentId, body: string, isRead: bool)

  /** The database. Tables whose queries order rows by creation time are
      sequences in insertion order; the others are maps keyed by row id. */
  datatype Game = Game(
    agents: map<AgentId, Agent>,
    stats: map<AgentId, Stats>,
    cards: map<CardId, Card>,
    packs: map<RowId, Pack>,
    battles: map<RowId, Battle>,
    trades: map<RowId, Trade>,
    friends: seq<Friendship>,
    decks: map<RowId, Deck>,
    achievements: seq<Achievement>,
    awards: map<RowId, Award>,
    notifications: seq<Notification>,
    messages: seq<Message>,
    nextId: RowId)

  /** Constants of config.js and the schema defaults, which are not part of
      this model: the ELO adjustments and the stats row of a new agent. */
  datatype Config = Config(eloWinBonus: int, eloLossPenalty: int, newAgentStats: Stats)

  /** Every row id is below `nextId`, and the sequence tables hold their rows in
      increasing id order: the uniqueness the source gets from uuidv4. */
  ghost predicate Valid(g: Game)
  {
    && (forall k :: k in g.packs ==> k < g.nextId)
    && (forall k :: k in g.battles ==> k < g.nextId)
    && (forall k :: k in g.trades ==> k < g.nextId)
    && (forall k :: k in g.decks ==> k < g.nextId)
    && (forall k :: k in g.awards ==> k < g.nextId)
    && (forall i :: 0 <= i < |g.friends| ==> g.friends[i].id < g.nextId)
    && (forall i, j :: 0 <= i < j < |g.friends| ==> g.friends[i].id < g.friends[j].id)
    && (forall i :: 0 <= i < |g.achievements| ==> g.achievements[i].id < g.nextId)
    && (forall i, j :: 0 <= i < j < |g.achievements| ==> g.achievements[i].id < g.achievements[j].id)
    && (forall i :: 0 <= i < |g.notifications| ==> g.notifications[i].id < g.nextId)
    && (forall i, j :: 0 <= i < j < |g.notifications| ==> g.notifications[i].id < g.notifications[j].id)
    && (forall i :: 0 <= i < |g.messages| ==> g.messages[i].id < g.nextId)
    && (forall i, j :: 0 <= i < j < |g.messages| ==> g.messages[i].id < g.messages[j].id)
  }

  /** `SELECT * FROM cards WHERE id = c AND owner_agent_id = a` finds a row. */
  predicate Owns(cards: map<CardId, Card>, a: AgentId, c: CardId)
  {
    c in cards && cards[c].owner == Some(a)
  }

  /** The ownership loops of the trade request and the deck update: the first
      listed card that `a` does not own, the one the error names. */
  function FirstUnowned(cards: map<CardId, Card>, a: AgentId, ids: seq<CardId>): (r: Option<CardId>)
    ensures r.None? <==> forall i :: 0 <= i < |ids| ==> Owns(cards, a, ids[i])
    ensures r.Some? ==> exists i :: 0 <= i < |ids| && ids[i] == r.value && !Owns(cards, a, ids[i])
                                    && forall j :: 0 <= j < i ==> Owns(cards, a, ids[j])
  {
    if |ids| == 0 then None
    else if !Owns(cards, a, ids[0]) then Some(ids[0])
    else
      var r := FirstUnowned(cards, a, ids[1..]);
      assert forall i :: 1 <= i < |ids| ==> ids[i] == ids[1..][i - 1];
      r
  }

  /** `UPDATE cards SET owner_agent_id = a WHERE id = c` for each listed card:
      listed cards that exist go to `a`, every other card keeps its owner, and
      no card is created. */
  function GiveCards(cards: map<CardId, Card>, ids: seq<CardId>, a: AgentId): (r: map<CardId, Card>)
    ensures r.Keys == cards.Keys
    ensures forall c :: c in cards ==> r[c] == (if c in ids then Card(Some(a)) else cards[c])
  {
    if |ids| == 0 then cards
    else
      var rest := GiveCards(cards, ids[1..], a);
      assert forall c :: c in ids <==> c == ids[0] || c in ids[1..];
      if ids[0] in rest then rest[ids[0] := Card(Some(a))] else rest
  }

  /** The number of cards `a` owns (`SELECT COUNT(*) FROM cards WHERE owner_agent_id = a`). */
  function OwnedCount(cards: map<CardId, Card>, a: AgentId): nat
  {
    |set c | c in cards && cards[c].owner == Some(a)|
  }

  /** getOrCreateAgent, seen from the handlers, which all pass the id they
      resolve as the display name too. A known agent's name is set to that
      name. A new agent gets its row, a stats row if it had none, and the signup
      bonus of two unopened starter packs under the next two ids. The mapping
      from Moltbook ids to internal ids lives in database.ts, which is not part
      of this model; the model takes the resolved id. */
  function EnsureAgent(g: Game, cfg: Config, a: AgentId): (r: Game)
    ensures a in r.agents && r.agents[a].name == a
    ensures a in g.agents ==> r == g.(agents := g.agents[a := g.agents[a].(name := a)])
    ensures a !in g.agents ==>
      && r.agents == g.agents[a := Agent(a, None)]
      && r.stats == (if a in g.stats then g.stats else g.stats[a := cfg.newAgentStats])
      && r.packs == g.packs[g.nextId := Pack(a, Starter, false)][g.nextId + 1 := Pack(a, Starter, false)]
      && r.nextId == g.nextId + 2
      && r.(agents := g.agents, stats := g.stats, packs := g.packs, nextId := g.nextId) == g
    ensures Valid(g) ==> Valid(r)
  {
    if a in g.agents then g.(agents := g.agents[a := g.agents[a].(name := a)])
    else
      var g1 := g.(agents := g.agents[a := Agent(a, None)],
                   stats := if a in g.stats then g.stats else g.stats[a := cfg.newAgentStats]);
      CreatePack(CreatePack(g1, a, Starter), a, Starter)
  }

  /** The signup bonus: under `Valid`, a new agent holds exactly two starter
      packs more than before, a known one none more, and nobody else's packs
      change. */
  lemma SignupBonus(g: Game, cfg: Config, a: AgentId)
    requires Valid(g)
    ensures a !in g.agents ==>
      && PacksOf(EnsureAgent(g, cfg, a).packs, a, Starter) == PacksOf(g.packs, a, Starter) + {g.nextId, g.nextId + 1}
      && |PacksOf(EnsureAgent(g, cfg, a).packs, a, Starter)| == |PacksOf(g.packs, a, Starter)| + 2
    ensures a in g.agents ==> EnsureAgent(g, cfg, a).packs == g.packs
    ensures forall b, t :: b != a || t != Starter ==> PacksOf(EnsureAgent(g, cfg, a).packs, b, t) == PacksOf(g.packs, b, t)
  {
    if a !in g.agents {
      NewAgentPacks(g, cfg, a);
    }
  }

  /** The two starter packs of a new agent, pack row by pack row. */
  lemma NewAgentPacks(g: Game, cfg: Config, a: AgentId)
    requires Valid(g) && a !in g.agents
    ensures var r := EnsureAgent(g, cfg, a);
      && PacksOf(r.packs, a, Starter) == PacksOf(g.packs, a, Starter) + {g.nextId, g.nextId + 1}
      && |PacksOf(r.packs, a, Starter)| == |PacksOf(g.packs, a, Starter)| + 2
      && forall b, t :: b != a || t != Starter ==> PacksOf(r.packs, b, t) == PacksOf(g.packs, b, t)
  {
    var r := EnsureAgent(g, cfg, a);
    var p := Pack(a, Starter, false);
    var p1 := g.packs[g.nextId := p];
    assert r.packs == p1[g.nextId + 1 := p];
    assert g.nextId !in g.packs && g.nextId + 1 !in g.packs;
    assert g.nextId + 1 !in p1;
    PacksOfAdd(g.packs, g.nextId, p);
    PacksOfAdd(p1, g.nextId + 1, p);
  }

  /** One more pack row under an unused id: its owner holds exactly one more
      pack of its type, and every other owner and type keeps its packs. */
  lemma PacksOfAdd(packs: map<RowId, Pack>, k: RowId, p: Pack)
    requires k !in packs
    ensures PacksOf(packs[k := p], p.owner, p.packType) == PacksOf(packs, p.owner, p.packType) + {k}
    ensures |PacksOf(packs[k := p], p.owner, p.packType)| == |PacksOf(packs, p.owner, p.packType)| + 1
    ensures forall b, t :: b != p.owner || t != p.packType ==> PacksOf(packs[k := p], b, t) == PacksOf(packs, b, t)
  {
    assert k !in PacksOf(packs, p.owner, p.packType);
  }

  /** createPack: one unopened pack of the given type for `owner`, under the next id. */
  function CreatePack(g: Game, owner: AgentId, t: PackType): (r: Game)
    ensures r.packs == g.packs[g.nextId := Pack(owner, t, false)]
    ensures r.nextId == g.nextId + 1
    ensures r.(packs := g.packs, nextId := g.nextId) == g
  {
    g.(packs := g.packs[g.nextId := Pack(owner, t, false)], nextId := g.nextId + 1)
  }

  /** The packs of `a` of the given type. */
  function PacksOf(packs: map<RowId, Pack>, a: AgentId, t: PackType): set<RowId>
  {
    set k | k in packs && packs[k].owner == a && packs[k].packType == t
  }

  /** Under `Valid`, a created pack is a new row: the agent holds exactly one
      more pack of that type and nobody else's packs change. */
  lemma CreatePackAddsOne(g: Game, owner: AgentId, t: PackType)
    requires Valid(g)
    ensures Valid(CreatePack(g, owner, t))
    ensures PacksOf(CreatePack(g, owner, t).packs, owner, t) == PacksOf(g.packs, owner, t) + {g.nextId}
    ensures g.nextId !in PacksOf(g.packs, owner, t)
    ensures forall b, u :: b != owner || u != t ==> PacksOf(CreatePack(g, owner, t).packs, b, u) == PacksOf(g.packs, b, u)
  {
    var r := CreatePack(g, owner, t);
    assert g.nextId !in g.packs;
  }
}

=== FILE: trading.dfy ===
/** Trades (src/handlers/trading.ts): an offer of owned cards for wanted ones,
    then an accept that swaps ownership and counts the trade for both
    parties, or a decline. */
module Trading {
  import opened GameState
  import Achievements

  /** handleTradeRequest: refused, creating nothing, at the first offered card
      the requester does not own, which the error names; the wanted cards are
      not checked. Otherwise the target goes through getOrCreateAgent and one
      pending trade holding both lists as given is stored under a fresh id. */
  function RequestTrade(g: Game, cfg: Config, a: AgentId, to: AgentId, offer: seq<CardId>, want: seq<CardId>): (r: Outcome<Result<RowId>>)
    ensures r.reply.Err? <==> exists i :: 0 <= i < |offer| && !Owns(g.cards, a, offer[i])
    ensures r.reply.Err? ==>
      && r.reply.error.CardNotOwned?
      && (exists i :: 0 <= i < |offer| && offer[i] == r.reply.error.card && !Owns(g.cards, a, offer[i])
                      && forall j :: 0 <= j < i ==> Owns(g.cards, a, offer[j]))
      && r.game == g
    ensures r.reply.Ok? ==>
      var e := EnsureAgent(g, cfg, to);
      && to in r.game.agents
      && r.game.trades == g.trades[r.reply.value := Trade(a, to, offer, want, RequestStatus.Pending)]
      && (Valid(g) ==> r.reply.value !in g.trades)
      && r.game.(trades := e.trades, nextId := e.nextId) == e
    ensures Valid(g) ==> Valid(r.game)
  {
    match FirstUnowned(g.cards, a, offer)
    case Some(c) => Outcome(g, Err(CardNotOwned(c)))
    case None =>
      var g1 := EnsureAgent(g, cfg, to);
      Outcome(StoreTrade(g1, Trade(a, to, offer, want, RequestStatus.Pending)), Ok(g1.nextId))
  }

  /** The insert half of handleTradeRequest: the trade under the next id. */
  function StoreTrade(g: Game, t: Trade): (r: Game)
    ensures r.trades == g.trades[g.nextId := t] && r.nextId == g.nextId + 1
    ensures Valid(g) ==> Valid(r) && g.nextId !in g.trades
    ensures r.(trades := g.trades, nextId := g.nextId) == g
  {
    g.(trades := g.trades[g.nextId := t], nextId := g.nextId + 1)
  }

  /** The trade row `handleTradeAccept` finds: addressed to `a` and pending. */
  predicate Acceptable(g: Game, a: AgentId, id: RowId)
  {
    id in g.trades && g.trades[id].to == a && g.trades[id].status == RequestStatus.Pending
  }

  /** The owner of card `c` after the swap: the wanted cards go to the
      proposer (that loop runs second, so a card listed on both sides ends
      there), the offered ones to the accepter, and every other card keeps its
      owner. */
  function SwappedOwner(cards: map<CardId, Card>, t: Trade, a: AgentId, c: CardId): Card
    requires c in cards
  {
    if c in t.wanted then Card(Some(t.from)) else if c in t.offered then Card(Some(a)) else cards[c]
  }

  /** The change the accept makes to column `h` of agent `b`'s stats: one
      more trade for both parties, and the literal card counts of the source,
      which credit the accepter with the wanted cards and the proposer with the
      offered ones. */
  function TradeDelta(t: Trade, a: AgentId, b: AgentId, h: StatField): int
  {
    (if h == TradesCompleted && b == a then 1 else 0)
    + (if h == TradesCompleted && b == t.from then 1 else 0)
    + (if h == CardsCollected && b == a then |t.wanted| else 0)
    + (if h == CardsCollected && b == t.from then |t.offered| else 0)
  }

  /** The ownership swap, the status change and the four stat updates of an
      accept, before the achievement checks. */
  function Exchange(g: Game, a: AgentId, id: RowId): (r: Game)
    requires Acceptable(g, a, id)
    ensures r.cards.Keys == g.cards.Keys
    ensures forall c :: c in g.cards ==> r.cards[c] == SwappedOwner(g.cards, g.trades[id], a, c)
    ensures r.trades == g.trades[id := g.trades[id].(status := Accepted)]
    ensures r.stats.Keys == g.stats.Keys
    ensures forall b, h :: b in g.stats ==> StatOf(r.stats[b], h) == StatOf(g.stats[b], h) + TradeDelta(g.trades[id], a, b, h)
    ensures r.(cards := g.cards, trades := g.trades, stats := g.stats) == g
  {
    var t := g.trades[id];
    var cards := GiveCards(GiveCards(g.cards, t.offered, a), t.wanted, t.from);
    var s1 := BumpStat(g.stats, a, TradesCompleted, 1);
    var s2 := BumpStat(s1, t.from, TradesCompleted, 1);
    var s3 := BumpStat(s2, a, CardsCollected, |t.wanted|);
    var s4 := BumpStat(s3, t.from, CardsCollected, |t.offered|);
    g.(cards := cards, trades := g.trades[id := t.(status := Accepted)], stats := s4)
  }

  /** handleTradeAccept: refused with no change unless the trade is addressed
      to `a` and pending; otherwise the exchange, then checkAchievements for
      the accepter and then for the proposer. The quest progress update is a
      no-op here. */
  function AcceptTrade(g: Game, a: AgentId, id: RowId): (r: Outcome<Result<()>>)
    ensures r.reply.Err? <==> !Acceptable(g, a, id)
    ensures r.reply.Err? ==> r.reply.error == TradeNotPending && r.game == g
    ensures r.reply.Ok? ==>
      && r.game.cards.Keys == g.cards.Keys
      && (forall c :: c in g.cards ==> r.game.cards[c] == SwappedOwner(g.cards, g.trades[id], a, c))
      && r.game.trades == g.trades[id := g.trades[id].(status := Accepted)]
    ensures r.game.(cards := g.cards, trades := g.trades, stats := g.stats, awards := g.awards,
                    notifications := g.notifications, nextId := g.nextId) == g
  {
    if !Acceptable(g, a, id) then Outcome(g, Err(TradeNotPending))
    else
      var from := g.trades[id].from;
      var ex := Exchange(g, a, id);
      var forAccepter := Achievements.CheckAchievements(ex, a);
      var forProposer := Achievements.CheckAchievements(forAccepter.game, from);
      Outcome(forProposer.game, Ok(()))
  }

  /** The ownership rule of an accept in terms of the two lists: after it the
      accepter owns every offered card and the proposer every wanted card that
      exists, and a card in neither list has not changed hands. */
  lemma AcceptTradeSwapsOwners(g: Game, a: AgentId, id: RowId)
    requires Acceptable(g, a, id)
    ensures var r := AcceptTrade(g, a, id).game;
      var t := g.trades[id];
      && (forall c :: c in t.wanted && c in g.cards ==> Owns(r.cards, t.from, c))
      && (forall c :: c in t.offered && c !in t.wanted && c in g.cards ==> Owns(r.cards, a, c))
      && (forall c :: c in g.cards && c !in t.offered && c !in t.wanted ==> r.cards[c] == g.cards[c])
  {
  }

  /** Accepting the same trade again fails: the first accept resolved it. */
  lemma SecondAcceptFails(g: Game, a: AgentId, id: RowId)
    requires Acceptable(g, a, id)
    ensures var once := AcceptTrade(g, a, id).game;
      AcceptTrade(once, a, id) == Outcome(once, Err(TradeNotPending))
  {
  }

  /** No achievement row rewards column `h`. */
  predicate NoRewardOn(rows: seq<Achievement>, h: StatField)
  {
    forall x :: x in rows ==> Achievements.Gain(x.reward, h) == 0
  }

  /** An accept moves `trades_completed` by exactly one for each party and
      `cards_collected` by the literal list lengths (the accepter by the
      wanted cards, the proposer by the offered ones), as long as no
      achievement row rewards that column; no third agent's column moves. */
  lemma AcceptTradeStats(g: Game, a: AgentId, id: RowId, h: StatField)
    requires Acceptable(g, a, id)
    requires h == TradesCompleted || h == CardsCollected
    requires NoRewardOn(g.achievements, h)
    ensures var r := AcceptTrade(g, a, id).game;
      && r.stats.Keys == g.stats.Keys
      && forall b :: b in g.stats ==> StatOf(r.stats[b], h) == StatOf(g.stats[b], h) + TradeDelta(g.trades[id], a, b, h)
  {
    var t := g.trades[id];
    var ex := Exchange(g, a, id);
    var c1 := Achievements.CheckAchievements(ex, a);
    var c2 := Achievements.CheckAchievements(c1.game, t.from);
    assert ex.achievements == g.achievements && c1.game.achievements == g.achievements;
    NoGainOnCandidates(ex, a, h);
    NoGainOnCandidates(c1.game, t.from, h);
  }

  /** checkAchievements leaves a column alone that no achievement row rewards. */
  lemma NoGainOnCandidates(g: Game, a: AgentId, h: StatField)
    requires NoRewardOn(g.achievements, h)
    ensures var r := Achievements.CheckAchievements(g, a).game;
      && r.stats.Keys == g.stats.Keys
      && forall b :: b in g.stats ==> StatOf(r.stats[b], h) == StatOf(g.stats[b], h)
  {
    var qs := Achievements.Qualifying(Achievements.Candidates(g, a), Achievements.ProgressOf(g, a));
    assert forall x :: x in qs ==> x in g.achievements;
    NoGainInTotal(qs, h);
  }

  lemma {:induction false} NoGainInTotal(xs: seq<Achievement>, h: StatField)
    requires forall x :: x in xs ==> Achievements.Gain(x.reward, h) == 0
    ensures Achievements.TotalGain(xs, h) == 0
  {
    if |xs| > 0 {
      assert xs[0] in xs;
      NoGainInTotal(xs[1..], h);
    }
  }

  /** The predefined catalog rewards neither column the accept counts. */
  lemma CatalogLeavesTradeStatsAlone()
    ensures forall d :: d in Achievements.Catalog() ==>
      Achievements.Gain(d.reward, TradesCompleted) == 0 && Achievements.Gain(d.reward, CardsCollected) == 0
  {
  }

  /** Accepting keeps `Valid`. */
  lemma AcceptTradeKeepsValid(g: Game, a: AgentId, id: RowId)
    requires Valid(g)
    ensures Valid(AcceptTrade(g, a, id).game)
  {
    if Acceptable(g, a, id) {
      var ex := Exchange(g, a, id);
      assert ex.trades.Keys == g.trades.Keys;
      Achievements.CheckAchievementsKeepsValid(ex, a);
      var c1 := Achievements.CheckAchievements(ex, a);
      Achievements.CheckAchievementsKeepsValid(c1.game, g.trades[id].from);
    }
  }

  /** handleTradeDecline: the trade with that id addressed to `a` is declined
      whatever its status, even an accepted one (whose cards stay where the
      accept put them); the handler reports success whether or not a row
      matched. */
  function DeclineTrade(g: Game, a: AgentId, id: RowId): (r: Outcome<bool>)
    ensures r.reply
    ensures r.game.trades.Keys == g.trades.Keys
    ensures forall k :: k in g.trades ==>
      r.game.trades[k] == if k == id && g.trades[k].to == a then g.trades[k].(status := RequestStatus.Declined) else g.trades[k]
    ensures r.game.(trades := g.trades) == g
  {
    if id in g.trades && g.trades[id].to == a then
      Outcome(g.(trades := g.trades[id := g.trades[id].(status := RequestStatus.Declined)]), true)
    else Outcome(g, true)
  }

  /** A declined trade can no longer be accepted. */
  lemma AcceptAfterDeclineFails(g: Game, a: AgentId, id: RowId)
    ensures var declined := DeclineTrade(g, a, id).game;
      AcceptTrade(declined, a, id) == Outcome(declined, Err(TradeNotPending))
  {
  }
}
